=== FILE: README.md ===
# Doctor–patient communication quiz: the adventure core

The application is a quiz on doctor–patient communication. It has two modes.
The classic mode shows one question card after another, level by level. The
adventure mode is a side-scrolling platformer. Every question hangs in the air
as a question tile. Striking a tile from below opens its question after a
short delay. A correct answer scores 10 points and consumes the tile. A wrong
answer ends the game. Reaching the podium's finish trigger after answering
every question starts a celebration, and the completion screen follows eight
seconds later.

The model covers four parts:

- **`Level`** (`level.dfy`) is the level generator. It builds a start
  platform, one 15-tile section per question with a three-tile cluster whose
  pattern depends on the question's position, a podium with the finish
  trigger, and a landing strip. **`LevelFacts`** (`level_facts.dfy`) proves
  what the generator guarantees whatever the random draws. **`Reach`**
  (`reach.dfy`) relates the cluster heights to the height of a jump.
- **`Physics`** (`physics.dfy`) is one frame of player physics:
  - key input, gravity and the speed clamp;
  - the horizontal and vertical collision passes over the tiles, in order;
  - the trigger of a question tile struck from below, and the finish lookup;
  - the camera, and the jump cut on releasing the jump key.
- **`Adventure`** (`adventure.dfy`) is the adventure session as a state
  machine over input events. Events are animation frames, key and touch
  presses and releases, the 800 ms question timer, the 8000 ms completion
  timer, an answer and closing the feedback. The session reports
  `QuestionPending`, `GameOver`, `FinalCelebrationStarted` and
  `GameComplete` signals.
- **`Classic`** (`classic.dfy`) is the application shell:
  - the start, level, option, next and restart handlers;
  - the adventure's two callbacks;
  - the completion screen's percentage and title.

  **`Types`** (`types.dfy`) holds the quiz data and the flattening of the
  levels into one question list.

### Modelling choices

- Coordinates and speeds are `real`, that is, exact rationals. This
  idealises the program's floating-point numbers, so no rounding is modelled.
- The two random numbers the generator draws per question are a parameter
  (`Draw`, each roll in [0, 1)).
- The window width the camera uses is a parameter of each frame.
- The level data is a parameter (`levels`).
- Timers are events. The 800 ms question timer is `QuestionTimer`. It opens
  the pending question. The 8000 ms completion timer is `CompletionTimer`. It
  reports the score taken when the celebration started.
- A frame is an event. The event's order stands in for the browser's
  scheduling.
- The session's `active` flag says whether the component is still mounted.
  Either ending unmounts it.
- `Step` and every property over runs of events (`RunInv`, `AtMostOneEnding`,
  `EndedStaysEnded`) use the corrected completion timer, which the session's
  end cancels. The program as written never cancels it (see Findings); that
  behaviour is `CompletionFiresAsWritten`.

## Model

| member | source | states |
|---|---|---|
| Types.AllQuestionsCount | components/MarioGame.tsx:450-451 | The adventure's flattened question list has as many entries as the completion screen's per-level count adds up to (App.tsx line 220). Question `qi` of level `li` sits at position `Rank(li, qi)` of that list. |
| Level.Row | components/MarioGame.tsx:73-76 | The floor-row loops (`push`, then advance by one tile) give `n` tiles. Tile `i` is the row's tile at `x0 + 70·i` on the floor line. |
| LevelFacts.LevelSize | components/MarioGame.tsx:65-195 | N questions give 36 + 18N tiles and a level 70·(29 + 15N) wide, whatever the draws. |
| LevelFacts.SectionsLength | components/MarioGame.tsx:79-149 | The first k sections hold 18k tiles. |
| LevelFacts.LevelCategoryCounts | components/MarioGame.tsx:65-195 | A level holds exactly N question tiles, 2N bricks, 10 podium tiles, one finish trigger and 25 + 15N ground tiles. |
| LevelFacts.LevelCount | components/MarioGame.tsx:65-195 | A level's count of any one category is the start platform's, the sections' and the finale's together. |
| LevelFacts.SectionCount | components/MarioGame.tsx:79-149 | Each section holds 15 ground tiles, 2 bricks and 1 question tile, whatever the pattern. |
| LevelFacts.SectionsCount | components/MarioGame.tsx:79-149 | k sections hold k times one section's census. |
| LevelFacts.PatternCount | components/MarioGame.tsx:107-148 | Each of the five cluster patterns is two bricks and one question tile. |
| LevelFacts.FinaleCount | components/MarioGame.tsx:151-191 | After the sections come 15 ground tiles (5 before the podium, 10 after), 10 podium tiles (4 + 3 + 2 + 1) and one finish trigger. |
| LevelFacts.StartCount | components/MarioGame.tsx:72-76 | The start platform is 10 ground tiles. |
| LevelFacts.RowCount | components/MarioGame.tsx:81-90 | A floor row holds only tiles of its own category. |
| LevelFacts.LevelQuestionTiles | components/MarioGame.tsx:107-148 | The question tiles of a level, in layout order, carry exactly the questions' identifiers in list order, and none starts consumed. |
| LevelFacts.SectionsQuestionTiles | components/MarioGame.tsx:79-149 | The question tiles of the first k sections are linked to the first k questions, in order. |
| LevelFacts.SectionQuestionTile | components/MarioGame.tsx:107-148 | Each section has exactly one question tile. It is linked to the section's question and unconsumed. |
| LevelFacts.LevelFloor | components/MarioGame.tsx:65-195 | The ground and podium-base tiles form one gapless row on the floor line from x = 0. The level's width is exactly that row's length. |
| LevelFacts.SectionsFloor | components/MarioGame.tsx:79-90 | The floor of k sections is a gapless row of 15k tiles starting after the start platform. |
| LevelFacts.SectionFloor | components/MarioGame.tsx:80-90 | A section's floor is its 3 gap tiles and 12 platform tiles, consecutive from tile 10 + 15·index. |
| LevelFacts.FinaleFloor | components/MarioGame.tsx:151-192 | The pre-finish ground, the podium base and the landing strip continue the floor without a gap. |
| LevelFacts.PodiumFloor | components/MarioGame.tsx:158-184 | Of the podium, only its 4-tile base is on the floor. The base follows the pre-finish ground directly. |
| LevelFacts.StartFloor | components/MarioGame.tsx:72-76 | The start platform is 10 consecutive floor tiles from x = 0. |
| LevelFacts.RowFloor | components/MarioGame.tsx:81-90 | A row laid from a tile boundary is a gapless run of floor tiles. |
| LevelFacts.LevelTiles | components/MarioGame.tsx:65-195 | Every generated tile is a 70 × 70 square inside [0, width]. It starts unconsumed. It has a question identifier exactly when it is a question tile. It sits on the floor line exactly when it is a floor tile. A question tile hangs 5 to 7 tiles above the floor. |
| LevelFacts.SectionTiles | components/MarioGame.tsx:79-149 | Each section's tiles, its cluster included, lie within its own 15-tile span whatever the draws. |
| LevelFacts.SectionsTiles | components/MarioGame.tsx:79-149 | The sections lie between the start platform and the pre-finish ground. |
| LevelFacts.PatternTiles | components/MarioGame.tsx:93-148 | A cluster stays within its section for every offset and spread roll in [0, 1). |
| LevelFacts.FinaleTiles | components/MarioGame.tsx:151-192 | The podium, the finish trigger and the landing strip lie within the last 19 tiles. |
| LevelFacts.RowTiles | components/MarioGame.tsx:81-90 | A row lies within any span that holds its first tile and its length. |
| LevelFacts.DrawsOnlyMoveClusters | components/MarioGame.tsx:96-105 | Two levels for the same questions differ only in the positions of bricks and question tiles, and have the same width. |
| LevelFacts.SectionCongruent | components/MarioGame.tsx:96-148 | The draws change where a section's cluster tiles sit, and nothing else about them. |
| LevelFacts.SectionsCongruent | components/MarioGame.tsx:79-149 | The same holds for the first k sections. |
| LevelFacts.RaiseShiftsLowTiersOnly | components/MarioGame.tsx:97-102 | An offset roll above one half lifts exactly the tiles at the two lower tiers by one tile. Every other tile is unchanged. |
| Physics.InitialPlayer | components/MarioGame.tsx:358-367 | The player starts at x = 100, 100 × 150, at rest, facing right. It stands 100 above the first ground tile, or at y = 0 when there is none (lines 459-462). |
| Adventure.StartPosition | components/MarioGame.tsx:454-462 | In a generated level the first ground tile is the first start-platform tile, so the player starts at (100, 900). |
| Physics.FindCategory | components/MarioGame.tsx:459 | The result is the first tile of the category, or none exists. |
| Physics.CollisionIsSharedInterior | components/MarioGame.tsx:723-730 | For boxes of positive size, the strict four-inequality test holds exactly when the two boxes share an interior point. |
| Physics.TouchingIsNotColliding | components/MarioGame.tsx:723-730 | Boxes that only touch along an edge do not collide. |
| Physics.ApplyInput | components/MarioGame.tsx:590-611 | The horizontal speed is −5, 0 or 5. It is positive exactly when only right is held and negative exactly when only left is held. Facing changes only when one direction is held. A jump (speed −26, airborne) happens exactly when a jump key is held on the ground. Nothing else changes. |
| Physics.ClampSpeed | components/MarioGame.tsx:617-619 | The speed ends within [−5, 5], and a speed already inside is untouched. |
| Physics.SpeedClampIsRedundant | components/MarioGame.tsx:600-619 | After input the clamp never changes anything. Gravity adds 0.8 to the vertical speed. |
| Physics.FirstHit | components/MarioGame.tsx:624-626 | The result is the first solid tile the player overlaps. Every earlier solid tile is clear. None means no solid tile overlaps. |
| Physics.ResolveX | components/MarioGame.tsx:626-633 | A colliding solid tile stops the player. A moving player (vx ≠ 0) is snapped to the tile's near side, after which they no longer overlap. A player at rest keeps its x and may still overlap. Anything else leaves the player unchanged. |
| Physics.HorizontalPass | components/MarioGame.tsx:623-634 | The player moves by vx. Only the first solid tile it then overlaps acts: the player snaps to it and stops. With no overlap the move stands. |
| Physics.SweepXFirstHit | components/MarioGame.tsx:624-634 | The loop over all tiles equals resolving against the first hit alone. |
| Physics.SweepXStopped | components/MarioGame.tsx:627-632 | Once stopped, later tiles do not move the player. |
| Physics.VerticalPass | components/MarioGame.tsx:636-670 | The player moves by vy and loses the ground. On the first solid tile it then overlaps, it lands on the tile when falling (grounded, vy = 0) or stops just under it when rising. A question is triggered, at most one, exactly when rising into an unconsumed question tile with the latch clear and a question with that id. Triggering sets the latch. |
| Physics.SweepYFirstHit | components/MarioGame.tsx:638-670 | The vertical loop equals resolving against the first hit alone. |
| Physics.SweepYStopped | components/MarioGame.tsx:641-647 | Once vy = 0, later tiles change nothing and trigger nothing. |
| Physics.FindQuestion | components/MarioGame.tsx:651 | The result is the first question with the tile's identifier, or none exists. |
| Physics.LatchOrUsedNeverTriggers | components/MarioGame.tsx:649-650 | A set latch, or consumed question tiles, never open a question. |
| Physics.PassesDoNotSeparateGlobally | components/MarioGame.tsx:624-634 | The loop resolves only the first overlapping tile. A player overlapping two bricks ends up still overlapping the second. |
| Physics.CameraFor | components/MarioGame.tsx:696-697 | The camera is the point of [0, max(0, width − viewport)] nearest to the player's x less a third of the viewport. |
| Physics.ReleaseJump | components/MarioGame.tsx:468-472 | Releasing jump halves the vertical speed only when rising faster than 5. The rise is slowed, never reversed. |
| Physics.FlightHeight | components/MarioGame.tsx:607-614 | In open air, n frames after a jump from the ground the speed is −26 + 0.8n. The height change is the sum of the speeds so far. |
| Physics.JumpApex | components/MarioGame.tsx:607-614 | A jump rises for exactly 32 frames and at most 409.6, reached on frame 32. |
| Reach.QuestionTilesWithinJump | components/MarioGame.tsx:96-102 | In open air, a jump from a player standing on the floor rises past the underside of every question tile of a generated level. Every such tile is above the standing player's head. Collisions on the way up are not considered. |
| Adventure.Start | components/MarioGame.tsx:450-465 | The session starts over every question of every level in order, on the generated level and its width, with the camera at 0, no score, no question, no celebration shown and none started. |
| Adventure.Settle | components/MarioGame.tsx:659-697 | Falling below y = 2000 reports game over and ends the session, skipping the left-edge clamp and the camera. Otherwise a player past the left edge is put back at x = 0, and the camera follows. A struck question becomes pending. Reaching the finish with every question answered schedules completion with the current score. |
| Adventure.SettleAnnounces | components/MarioGame.tsx:649-681 | A frame announces the struck question exactly when one was triggered. It announces the celebration start exactly when the finish is first reached with everything answered. It never reports completion itself. |
| Adventure.Tick | components/MarioGame.tsx:543-550 | While a question is open, or after the end, a frame changes nothing (line 590). Otherwise it is one step of the physics. |
| Adventure.FrameLatch | components/MarioGame.tsx:650-653 | A frame announces a question only when the latch was clear, and then sets it. With the latch set no question is announced. |
| Adventure.OpenQuestion | components/MarioGame.tsx:659-662 | When the 800 ms timer fires, the pending question opens and the latch is released. |
| Adventure.FirstLinked | components/MarioGame.tsx:868 | The result is the index of the first tile carrying the question's id, or no tile carries it. |
| Adventure.MarkUsed | components/MarioGame.tsx:868-873 | Only the first tile linked to the question is marked consumed, and only when there is one. |
| Adventure.HandleAnswer | components/MarioGame.tsx:849-877 | An answer shows feedback with the analysis. A correct one adds 10 points and one answered question, shows the celebration and consumes the question's tile, and changes nothing else. A wrong one changes nothing but the feedback. Without an open question nothing happens. |
| Adventure.Close | components/MarioGame.tsx:879-887 | Closing correct feedback clears the question, feedback and celebration. Closing anything else reports game over. |
| Adventure.CompletionFiresAsWritten | components/MarioGame.tsx:681 | The completion timer as written reports completion with the scheduled score whenever it was scheduled, even after the session ended. |
| Adventure.CompletionFires | components/MarioGame.tsx:681 | The completion timer, cancelled on unmount, reports only in a live session and ends it. |
| Adventure.CompletionAfterGameOver | components/MarioGame.tsx:676-691 | A game-over frame after the celebration started leaves the timer as written still to report completion. The corrected timer stays silent. |
| Adventure.FallingAfterFinishEndsTwice | components/MarioGame.tsx:676-691 | A concrete session after the finish, with all three of its questions answered and the run invariant holding, falls through y = 2000: it reports game over and then, as written, completion. |
| Adventure.Press | components/MarioGame.tsx:467 | Pressing a key holds it, and nothing else changes (line 898 for touch). |
| Adventure.ReleaseKey | components/MarioGame.tsx:468-473 | Releasing a key lets it go. A jump key also cuts a fast rise, even while paused. Nothing else changes. |
| Adventure.ReleaseTouch | components/MarioGame.tsx:907-914 | Lifting a touch control lets it go. The up control cuts a fast rise. Nothing else changes. |
| Adventure.TouchIsKeyboard | components/MarioGame.tsx:1092-1114 | The three on-screen controls behave like the matching keys. |
| Adventure.Step | components/MarioGame.tsx:1120-1185 | One event, with the corrected completion timer (`CompletionFires`), not the never-cancelled one at line 681. An ended session ignores everything. A frame is `Tick`; the 800 ms timer opens the pending question, if any; the 8000 ms timer is `CompletionFires`; key and touch presses hold the key; key and touch releases are `ReleaseKey` and `ReleaseTouch`. Answers are taken only while options show, and closing only while feedback shows. An event reports at most one ending, and an ending ends the session. Tiles only get consumed. |
| Adventure.FrameEndings | components/MarioGame.tsx:689-691 | A frame reports at most one ending, and that ending ends the session. |
| Adventure.SettleSignals | components/MarioGame.tsx:675-691 | A frame's signals hold at most one ending and at most one celebration start, the latter only before the celebration. |
| Adventure.AtMostOneEnding | components/MarioGame.tsx:681-691 | Over any run of events the corrected session reports at most one ending: game over or completion. |
| Adventure.EndedStaysEnded | components/MarioGame.tsx:689-691 | With the corrected completion timer, an ended session stays ended and silent. As written, the timer at line 681 can still report after the end (see Findings). |
| Adventure.RunConsumes | components/MarioGame.tsx:868-870 | Over any run no tile moves, appears or disappears, and consumed tiles stay consumed. |
| Adventure.MarkUsedConsumes | components/MarioGame.tsx:868-870 | Answering only sets consumed flags. |
| Adventure.ConsumesTrans | components/MarioGame.tsx:868-870 | Consuming composes. |
| Adventure.StartInv | components/MarioGame.tsx:197-206 | The starting session satisfies the invariant: score = 10 × answered, latch ⇔ pending, feedback only on an open question, celebration ⇔ correct feedback, and completion scheduled only at the full score. |
| Adventure.StepInv | components/MarioGame.tsx:849-887 | Every event keeps the invariant and the question list. |
| Adventure.FrameInv | components/MarioGame.tsx:636-686 | Every frame keeps the invariant. |
| Adventure.RunInv | components/MarioGame.tsx:540-887 | Any run of events keeps the invariant. |
| Adventure.CelebrationStartsOnce | components/MarioGame.tsx:675-677 | Over any run the celebration starts at most once, and never again once started. |
| Adventure.CelebrationStepFacts | components/MarioGame.tsx:675-677 | One event starts the celebration at most once, only if it had not started, and never stops it. |
| Adventure.CompletionReportsFullScore | components/MarioGame.tsx:676-681 | A reported completion always carries ten points for every question. |
| Classic.StartGame | App.tsx:22-30 | Starting picks the mode and zeroes the score. Classic goes to the level transition and the adventure to play. The indices are kept. |
| Classic.StartLevel | App.tsx:32-34 | The transition screen gives way to play, and nothing else changes. |
| Classic.SelectOption | App.tsx:36-42 | Feedback shows and the score grows by 10 exactly when the option is correct. Options are offered only while no feedback shows (components/GameScreen.tsx line 186). |
| Classic.Next | App.tsx:44-59 | Selection and feedback are cleared and the score is kept. The result is the next question, the next level's transition, or completion with the indices kept. |
| Classic.NextAdvances | App.tsx:44-59 | On levels that all have questions, moving on is one step in the flattened order. It completes exactly after the last question. A level change goes to the next level's first question behind its transition screen. |
| Classic.NextWithinLevel | App.tsx:48-49 | Within a level, moving on is the next index and one step forward. |
| Classic.NextAcrossLevels | App.tsx:51-54 | From a level's last question, moving on goes to the next level's first question, one step forward. |
| Classic.NextAtEnd | App.tsx:55-57 | From the last question of the last level, moving on completes. |
| Classic.PositionBelowTotal | App.tsx:19-20 | The current question is entry `Position` of the flattened list, below the total. |
| Classic.NextTimes | App.tsx:44-59 | Repeated moving on keeps the indices valid. |
| Classic.NextValid | App.tsx:44-59 | Moving on keeps the indices valid. |
| Classic.WalkVisitsInOrder | App.tsx:44-59 | From the first question, the k-th press shows the k-th question of the flattened list, without completing early. |
| Classic.WalkVisitsEveryQuestion | App.tsx:44-59 | From the first question, every question of every level is shown at the press given by its rank. The walk's position grows by one per press, so each question is shown exactly once. |
| Classic.PositionInjective | App.tsx:19-20 | Distinct (level, question) pairs have distinct positions in the flattened order. |
| Classic.TotalMonotone | App.tsx:220 | A longer prefix of the levels never holds fewer questions. |
| Classic.WalkPosition | App.tsx:44-59 | After k presses from the start the position is k. |
| Classic.WalkCompletes | App.tsx:44-59 | After as many presses as there are questions the completion screen shows. |
| Classic.Restart | App.tsx:61-68 | Restarting returns to the launch state, keeping the mode. |
| Classic.OnGameComplete | App.tsx:168-171 | The adventure's completion shows the completion screen with its score. |
| Classic.OnGameOver | App.tsx:172-174 | The adventure's game over shows the game-over screen, keeping the score. |
| Classic.GameOverOverridden | App.tsx:167-175 | A game over followed by a late completion ends on the completion screen. |
| Classic.Percentage | App.tsx:220-222 | The percentage is the exact score ratio times 100 rounded to the nearest integer, halves up, or 0 when there are no questions. This idealises the double product (see Left out). |
| Classic.PercentageRange | App.tsx:222 | A score between 0 and the maximum gives 0 to 100, and exactly 100 when the score is at least 99.5% of the maximum. |
| Classic.RoundedRatio | App.tsx:222 | The nearest whole percentage of a ratio in [0, 1] lies in 0..100, and is 100 exactly when the ratio is at least 0.995. |
| Classic.PercentageFull | App.tsx:222 | The full score gives 100. |
| Classic.TitleFor | App.tsx:224-235 | The top title goes exactly to 100, the second to 80-99 (or above 100), the third to 60-79, and the default to the rest. |
| Classic.TitleMonotone | App.tsx:224-235 | Up to 100, a higher percentage never earns a lower title. |
| Classic.AdventureCompletionIsPerfect | App.tsx:167-171 | A completed adventure always lands on 100% and the top title (lines 219-228). |

## Left out

- Audio, particles, floating effects, fireworks, sprites, the animation-state
  choice (components/MarioGame.tsx lines 555-587) and all rendering are left
  out. They never feed back into the game state.
- `isPlaying` and the pause test's `showCelebration` branch (lines 543-550)
  are left out. The only gate on the game logic is the open question
  (line 590), so the effective rule is modelled as `Paused`.
- `ACCELERATION`, `FRICTION` and `AIR_RESISTANCE` (lines 10-12) are left out.
  They are declared but never used.
- Floating-point rounding is left out, because coordinates are exact
  rationals.
- Classic.Percentage: rounds the exact ratio, not the double product. For
  230 of 400 points the product `(230 / 400) * 100` is 57.49999999999999 in
  doubles, so the program shows 57 where the model gives 58. With up to 2000
  questions there are 80 such score/maximum pairs (4 distinct ratios, which
  the model rounds to 15, 29, 57 and 58), whose double product falls just
  below a half. None of them rounds to 60, 80 or 100, so no title changes.
- The browser's clock, random numbers and window size are parameters.
  React's batching of state updates is modelled by applying each handler's
  updates at once.
- Stale closures are left out: every event, frames included, sees the state
  the previous event left. In the program the frame callback `update` is
  recreated only after a re-render (components/MarioGame.tsx line 703), so
  for one frame its `!finalCelebration` test (line 672) can read an old
  value. Adventure.CelebrationStartsOnce rests on this choice.
- The 2000 ms applause timer (line 679) is left out, because it only plays
  a sound.
- The 200 ms bump timer (line 872) is left out, because it only plays a
  sound.
- The question data (`data.ts`) is not part of this model. The levels are a
  parameter.
- The classic question screen (components/GameScreen.tsx) is not part of
  this model, beyond its guard that options are taken only before feedback.
- Classic.SelectOption: requires valid indices and no feedback showing. The
  screen offers options only then, and the handler itself reads the current
  question from the indices.
- Adventure.Step: answers and closing are modelled only while their dialogs
  show (lines 1120 and 1160). Outside them the buttons do not exist.
- Physics.Flight: has no tiles, so jump height is stated for open air only.

## Findings

| source | as written | input that shows it | evidently intended | confidence | as-written member | corrected member |
|---|---|---|---|---|---|---|
| components/MarioGame.tsx:681 | The 8000 ms completion timer is never cancelled. If the player falls below y = 2000 after the celebration starts, `onGameOver` shows the game-over screen, and when the timer fires `onGameComplete` replaces it with the completion screen and the full score. | Answer every question, touch the finish, then walk right off the end of the landing strip (700 px at 5 per frame) and fall within 8 s. | An ended session reports nothing more. The timer is cleared on unmount, so a run ends exactly once. | not executed | Adventure.CompletionFiresAsWritten (with Adventure.CompletionAfterGameOver, Adventure.FallingAfterFinishEndsTwice, Classic.GameOverOverridden) | Adventure.CompletionFires (with Adventure.AtMostOneEnding) |

=== FILE: adventure.dfy ===
/** The adventure session (`MarioGame`): the per-frame update, the delayed
    opening of a struck question, answering and closing the feedback, the
    final celebration and its delayed completion callback, and key and touch
    input. Callbacks to the enclosing app are emitted as `Signal`s; timers
    and animation frames are explicit `Input` events. */
module Adventure {
  import opened Optional
  import opened Seqs
  import Types
  import opened Level
  import opened Physics

  /** The answer feedback on screen. */
  datatype Feedback = Feedback(isCorrect: bool, analysis: string)

  /** What the session reports outward: a question about to open (the
      800 ms timer is scheduled), the game-over callback, the start of the
      final celebration (the 8000 ms timer is scheduled), and the completion
      callback with its score. */
  datatype Signal = QuestionPending(qid: int) | GameOver | FinalCelebrationStarted | GameComplete(score: int)

  /** `pending` is the question whose 800 ms timer is running; `completion`
      is the score the 8000 ms timer will report; `active` is false once
      the session has reported its end. */
  datatype Session = Session(
    questions: seq<Types.Question>,
    blocks: seq<Block>,
    levelWidth: real,
    player: Player,
    camera: real,
    held: set<string>,
    latch: bool,
    pending: Option<Types.Question>,
    current: Option<Types.Question>,
    feedback: Option<Feedback>,
    score: int,
    answeredCount: int,
    showCelebration: bool,
    finalCelebration: bool,
    completion: Option<int>,
    active: bool)

  datatype Input =
    | Frame(viewport: real)
    | KeyDown(code: string)
    | KeyUp(code: string)
    | TouchStart(key: string)
    | TouchEnd(key: string)
    | QuestionTimer
    | CompletionTimer
    | Answer(optionId: string)
    | CloseFeedback

  datatype Outcome = Outcome(session: Session, signals: seq<Signal>)

  /** The session at mount, over the questions of every level in order. */
  function Start(levels: seq<Types.Level>, ds: seq<Draw>): (s: Session)
    requires ValidDraws(Types.AllQuestions(levels), ds)
    ensures s.questions == Types.AllQuestions(levels)
    ensures s.blocks == GenerateLevel(s.questions, ds).blocks
    ensures s.player == InitialPlayer(s.blocks)
    ensures s.active && s.score == 0 && s.answeredCount == 0 && s.held == {}
    ensures s.current.None? && s.pending.None? && s.feedback.None? && !s.latch
    ensures !s.finalCelebration && s.completion.None? && !s.showCelebration
    ensures s.levelWidth == GenerateLevel(s.questions, ds).width && s.camera == 0.0
  {
    var qs := Types.AllQuestions(levels);
    var level := GenerateLevel(qs, ds);
    Session(qs, level.blocks, level.width, InitialPlayer(level.blocks), 0.0, {}, false,
            None, None, None, 0, 0, false, false, None, true)
  }

  /** The player starts 100 above the first tile of the start platform:
      at y = 900, its feet 50 inside the floor until the first frame
      lands it. */
  lemma StartPosition(levels: seq<Types.Level>, ds: seq<Draw>)
    requires ValidDraws(Types.AllQuestions(levels), ds)
    ensures Start(levels, ds).player.y == GroundY - 100.0
    ensures Start(levels, ds).player.x == 100.0
  {
    var qs := Types.AllQuestions(levels);
    var n := |qs|;
    var rest := Sections(qs, ds, n) + Finale(n);
    assert GenerateLevel(qs, ds).blocks == StartPlatform() + rest;
    FirstGroundLeads(StartPlatform(), rest);
  }

  lemma FirstGroundLeads(a: seq<Block>, b: seq<Block>)
    requires |a| > 0 && a[0].category == GroundTile
    ensures FindCategory(a + b, GroundTile) == Some(a[0])
  {
    assert (a + b)[0] == a[0];
  }

  // ---------------------------------------------------------------------
  // The frame

  /** Physics runs only while the session is on and no question is open;
      the answer feedback keeps the question open. */
  predicate Paused(s: Session) { !s.active || s.current.Some? }

  /** Whether the player, at the end of the vertical pass, stands on the
      finish with every question answered and no celebration yet. */
  predicate StartsCelebration(s: Session, p: Player) {
    ReachesFinish(p, s.blocks) && !s.finalCelebration && s.answeredCount == |s.questions|
  }

  /** The player's motion in one unpaused frame: input, gravity, the speed
      clamp, then the horizontal and vertical passes. */
  function Motion(s: Session): VerticalOutcome {
    VerticalPass(HorizontalPass(ClampSpeed(Fall(ApplyInput(s.player, s.held))), s.blocks), s.blocks, s.latch, s.questions)
  }

  /** What a frame announces before the fall test: the question of the
      tile struck from below, if any, then the start of the celebration
      when the finish is first reached. */
  function Announced(s: Session, v: VerticalOutcome): (a: seq<Signal>)
    ensures forall id :: QuestionPending(id) in a <==> |v.triggered| == 1 && id == v.triggered[0].id
    ensures FinalCelebrationStarted in a <==> StartsCelebration(s, v.player)
    ensures forall g :: g in a ==> g.QuestionPending? || g.FinalCelebrationStarted?
  {
    (if |v.triggered| == 1 then [QuestionPending(v.triggered[0].id)] else [])
      + (if StartsCelebration(s, v.player) then [FinalCelebrationStarted] else [])
  }

  /** The bookkeeping every unpaused frame does, fall or not: the latch
      follows the pass, a struck question becomes pending, and the first
      arrival at the finish with every question answered starts the
      celebration and schedules completion with the current score. */
  function Booked(s: Session, v: VerticalOutcome): (t: Session)
    ensures t == s.(latch := v.latch, pending := t.pending,
                    finalCelebration := t.finalCelebration, completion := t.completion)
    ensures |v.triggered| == 1 ==> t.pending == Some(v.triggered[0])
    ensures |v.triggered| != 1 ==> t.pending == s.pending
    ensures StartsCelebration(s, v.player) ==> t.finalCelebration && t.completion == Some(s.score)
    ensures !StartsCelebration(s, v.player) ==> t.finalCelebration == s.finalCelebration && t.completion == s.completion
  {
    var starts := StartsCelebration(s, v.player);
    s.(latch := v.latch,
       pending := if |v.triggered| == 1 then Some(v.triggered[0]) else s.pending,
       finalCelebration := s.finalCelebration || starts,
       completion := if starts then Some(s.score) else s.completion)
  }

  /** The bookkeeping of an unpaused frame once the passes have produced
      `v`. Falling below the limit ends the session on the spot, skipping
      the left-edge clamp and the camera; otherwise a player past the left
      edge is put back at x = 0 and the camera follows. A struck question is
      announced and becomes pending. Standing on the finish with every
      question answered starts the final celebration, once, scheduling
      completion with the current score. Nothing else changes. */
  function Settle(s: Session, v: VerticalOutcome, viewport: real): (o: Outcome)
    ensures var t := o.session;
      && t.questions == s.questions && t.blocks == s.blocks && t.levelWidth == s.levelWidth && t.held == s.held
      && t.current == s.current && t.feedback == s.feedback && t.showCelebration == s.showCelebration
      && t.score == s.score && t.answeredCount == s.answeredCount && t.latch == v.latch
      && (GameOver in o.signals <==> v.player.y > FallLimit)
      && (GameOver in o.signals ==> !t.active && t.player == v.player && t.camera == s.camera)
      && (GameOver !in o.signals ==>
            && t.active == s.active && t.player == v.player.(x := Max(0.0, v.player.x))
            && NearestIn(t.camera, t.player.x - viewport / 3.0, 0.0, Max(0.0, s.levelWidth - viewport)))
      && (|v.triggered| == 1 ==> t.pending == Some(v.triggered[0]))
      && (|v.triggered| != 1 ==> t.pending == s.pending)
      && (StartsCelebration(s, v.player) ==> t.finalCelebration && t.completion == Some(s.score))
      && (!StartsCelebration(s, v.player) ==> t.finalCelebration == s.finalCelebration && t.completion == s.completion)
  {
    var a := Announced(s, v);
    var b := Booked(s, v);
    if v.player.y > FallLimit then
      Outcome(b.(player := v.player, active := false), a + [GameOver])
    else
      var placed := if v.player.x < 0.0 then v.player.(x := 0.0) else v.player;
      Outcome(b.(player := placed, camera := CameraFor(placed.x, viewport, s.levelWidth)), a)
  }

  /** What a frame announces: the question of the tile struck from below,
      if any; the start of the celebration when the finish is first reached;
      and never the completion itself. */
  lemma SettleAnnounces(s: Session, v: VerticalOutcome, viewport: real)
    ensures var o := Settle(s, v, viewport);
      && (forall id :: QuestionPending(id) in o.signals <==> |v.triggered| == 1 && id == v.triggered[0].id)
      && (FinalCelebrationStarted in o.signals <==> StartsCelebration(s, v.player))
      && forall g :: g in o.signals ==> !g.GameComplete?
  {
    var o := Settle(s, v, viewport);
    var ended := if v.player.y > FallLimit then [GameOver] else [];
    assert o.signals == Announced(s, v) + ended;
  }

  /** One animation frame: nothing moves while paused. */
  function Tick(s: Session, viewport: real): (o: Outcome)
    ensures Paused(s) ==> o == Outcome(s, [])
    ensures !Paused(s) ==> o == Settle(s, Motion(s), viewport)
  {
    if Paused(s) then Outcome(s, []) else Settle(s, Motion(s), viewport)
  }

  /** A frame announces a question only when the latch was clear, and the
      latch is then set; with the latch set it announces none. */
  lemma FrameLatch(s: Session, viewport: real)
    requires !Paused(s)
    ensures var o := Tick(s, viewport);
      && o.session.latch == (s.latch || exists id :: QuestionPending(id) in o.signals)
      && (s.latch ==> forall id :: QuestionPending(id) !in o.signals)
  {
    var v := Motion(s);
    var o := Tick(s, viewport);
    if |v.triggered| == 1 {
      assert QuestionPending(v.triggered[0].id) in o.signals;
    }
  }

  predicate IsEnding(g: Signal) { g.GameOver? || g.GameComplete? }

  predicate IsCelebrationStart(g: Signal) { g.FinalCelebrationStarted? }

  // ---------------------------------------------------------------------
  // Questions and answers

  /** The 800 ms timer of a struck tile fires: its question opens and the
      latch is released. */
  function OpenQuestion(s: Session): (t: Session)
    requires s.pending.Some?
    ensures t.current == s.pending && t.pending.None? && !t.latch
    ensures t == s.(current := t.current, pending := None, latch := false)
  {
    s.(current := s.pending, pending := None, latch := false)
  }

  /** The first tile linked to question `qid`. */
  function FirstLinked(bs: seq<Block>, qid: int): (r: Option<nat>)
    ensures r.Some? ==> r.value < |bs| && bs[r.value].questionId == Some(qid)
    ensures r.Some? ==> forall j :: 0 <= j < r.value ==> bs[j].questionId != Some(qid)
    ensures r.None? ==> forall j :: 0 <= j < |bs| ==> bs[j].questionId != Some(qid)
  {
    if |bs| == 0 then None
    else if bs[0].questionId == Some(qid) then Some(0)
    else match FirstLinked(bs[1..], qid)
      case None => None
      case Some(i) => Some(i + 1)
  }

  /** Marks the first tile linked to `qid` as consumed (`findIndex`); with
      no such tile nothing changes. */
  function MarkUsed(bs: seq<Block>, qid: int): (r: seq<Block>)
    ensures r == match FirstLinked(bs, qid) case None => bs case Some(i) => bs[i := bs[i].(isUsed := true)]
  {
    if |bs| == 0 then []
    else if bs[0].questionId == Some(qid) then [bs[0].(isUsed := true)] + bs[1..]
    else
      var rest := MarkUsed(bs[1..], qid);
      assert [bs[0]] + bs[1..] == bs;
      [bs[0]] + rest
  }

  /** Answering the open question. A correct answer earns 10 points, counts
      the question as answered, shows the celebration and consumes the
      question's tile; a wrong one only shows the feedback. Either way the
      feedback carries the question's analysis. With no open question
      nothing happens. */
  function HandleAnswer(s: Session, optionId: string): (t: Session)
    ensures s.current.None? ==> t == s
    ensures s.current.Some? ==>
      var q := s.current.value;
      && t.feedback == Some(Feedback(optionId == q.correctAnswer, q.analysis))
      && t.current == s.current && t.player == s.player && t.pending == s.pending && t.latch == s.latch
      && (optionId == q.correctAnswer ==>
            t == s.(feedback := t.feedback, score := s.score + 10, answeredCount := s.answeredCount + 1,
                    showCelebration := true, blocks := MarkUsed(s.blocks, q.id)))
      && (optionId != q.correctAnswer ==>
            t == s.(feedback := t.feedback))
  {
    match s.current
    case None => s
    case Some(q) =>
      var correct := optionId == q.correctAnswer;
      var shown := s.(feedback := Some(Feedback(correct, q.analysis)));
      if correct then
        shown.(score := s.score + 10, answeredCount := s.answeredCount + 1, showCelebration := true,
               blocks := MarkUsed(s.blocks, q.id))
      else shown
  }

  /** Closing the feedback. After a correct answer the question closes and
      play resumes; otherwise (a wrong answer, or no feedback at all) the
      game is over. */
  function Close(s: Session): (o: Outcome)
    ensures s.feedback.Some? && s.feedback.value.isCorrect ==>
      o == Outcome(s.(feedback := None, current := None, showCelebration := false), [])
    ensures !(s.feedback.Some? && s.feedback.value.isCorrect) ==>
      o == Outcome(s.(active := false), [GameOver])
  {
    if s.feedback.Some? && s.feedback.value.isCorrect then
      Outcome(s.(feedback := None, current := None, showCelebration := false), [])
    else Outcome(s.(active := false), [GameOver])
  }

  // ---------------------------------------------------------------------
  // The completion timer

  /** The 8000 ms completion timer as written: it is never cancelled, so it
      reports completion even after the session has ended. */
  function CompletionFiresAsWritten(s: Session): (o: Outcome)
    ensures s.completion.Some? ==> o.signals == [GameComplete(s.completion.value)]
    ensures s.completion.None? ==> o == Outcome(s, [])
  {
    match s.completion
    case None => Outcome(s, [])
    case Some(v) => Outcome(s.(completion := None, active := false), [GameComplete(v)])
  }

  /** The 8000 ms completion timer as intended: tearing the session down
      cancels it, so it reports only while the session is on, and its report
      ends the session. */
  function CompletionFires(s: Session): (o: Outcome)
    ensures s.active && s.completion.Some? ==>
      o == Outcome(s.(completion := None, active := false), [GameComplete(s.completion.value)])
    ensures !(s.active && s.completion.Some?) ==> o == Outcome(s, [])
  {
    if s.active && s.completion.Some? then
      Outcome(s.(completion := None, active := false), [GameComplete(s.completion.value)])
    else Outcome(s, [])
  }

  /** Falling off the level after the finish, before the completion timer
      runs out: the frame reports game over and the timer, as written, then
      reports completion too, so the app sees both endings. */
  lemma CompletionAfterGameOver(s: Session, viewport: real)
    requires s.finalCelebration && s.completion.Some?
    requires GameOver in Tick(s, viewport).signals
    ensures !Tick(s, viewport).session.active
    ensures CompletionFiresAsWritten(Tick(s, viewport).session).signals == [GameComplete(s.completion.value)]
    ensures CompletionFires(Tick(s, viewport).session).signals == []
  {
  }

  /** One of the three questions the concrete session below has answered. */
  function Asked(id: int): Types.Question {
    Types.Question(id, None, "q", [], "A", "")
  }

  /** A concrete such session, with no tiles: all three questions are
      answered, the celebration has started with 30 points and the player is
      falling through y = 1990 at 20 per frame. */
  function FallingAfterFinish(): Session {
    var player := Player(2000.0, 1990.0, 0.0, 20.0, 100.0, 150.0, false, true);
    Session([Asked(1), Asked(2), Asked(3)], [], 0.0, player, 0.0, {}, false,
            None, None, None, 30, 3, false, true, Some(30), true)
  }

  /** The session keeps the invariant every run keeps, and its next frame
      and the timer as written report both endings. */
  lemma FallingAfterFinishEndsTwice()
    ensures Inv(FallingAfterFinish())
    ensures GameOver in Tick(FallingAfterFinish(), 1000.0).signals
    ensures CompletionFiresAsWritten(Tick(FallingAfterFinish(), 1000.0).session).signals == [GameComplete(30)]
  {
    var s := FallingAfterFinish();
    var p := ClampSpeed(Fall(ApplyInput(s.player, s.held)));
    assert HorizontalPass(p, []) == p.(x := p.x + p.vx);
  }

  // ---------------------------------------------------------------------
  // Input

  /** Pressing a key (or touching a control) holds it. */
  function Press(s: Session, code: string): (t: Session)
    ensures t == s.(held := s.held + {code})
    ensures code in t.held
  {
    s.(held := s.held + {code})
  }

  /** Releasing a key lets it go; releasing a jump key while rising fast
      cuts the rise in half, even while a question is open. */
  function ReleaseKey(s: Session, code: string): (t: Session)
    ensures t.held == s.held - {code} && code !in t.held
    ensures t.player == if IsJumpKey(code) then ReleaseJump(s.player) else s.player
    ensures t == s.(held := t.held, player := t.player)
  {
    var t := s.(held := s.held - {code});
    if IsJumpKey(code) then t.(player := ReleaseJump(s.player)) else t
  }

  /** Lifting a touch control lets it go; lifting the up control cuts a
      fast rise in half. */
  function ReleaseTouch(s: Session, key: string): (t: Session)
    ensures t.held == s.held - {key}
    ensures t.player == if key == "ArrowUp" then ReleaseJump(s.player) else s.player
    ensures t == s.(held := t.held, player := t.player)
  {
    var t := s.(held := s.held - {key});
    if key == "ArrowUp" then t.(player := ReleaseJump(s.player)) else t
  }

  /** The three on-screen controls behave as their keys do. */
  lemma TouchIsKeyboard(s: Session, key: string)
    requires key == "ArrowLeft" || key == "ArrowRight" || key == "ArrowUp"
    ensures ReleaseTouch(s, key) == ReleaseKey(s, key)
  {
  }

  // ---------------------------------------------------------------------
  // Events and runs

  /** One event. Answers are taken only while the options are shown (a
      question open, no feedback yet) and closing only while the feedback is
      shown; an ended session ignores everything. */
  function Step(s: Session, e: Input): (o: Outcome)
    ensures !s.active ==> o == Outcome(s, [])
    ensures |Filter(o.signals, IsEnding)| <= 1
    ensures |Filter(o.signals, IsEnding)| == 1 ==> !o.session.active
    ensures Consumes(s.blocks, o.session.blocks)
    ensures s.active && e.Frame? ==> o == Tick(s, e.viewport)
    ensures s.active && e.Answer? && !(s.current.Some? && s.feedback.None?) ==> o == Outcome(s, [])
    ensures s.active && e.Answer? && s.current.Some? && s.feedback.None? ==>
      o == Outcome(HandleAnswer(s, e.optionId), [])
    ensures s.active && e.CloseFeedback? && s.feedback.None? ==> o == Outcome(s, [])
    ensures s.active && e.CloseFeedback? && s.feedback.Some? ==> o == Close(s)
    ensures s.active && e.CompletionTimer? ==> o == CompletionFires(s)
    ensures s.active && e.QuestionTimer? ==> o == Outcome(if s.pending.Some? then OpenQuestion(s) else s, [])
    ensures s.active && e.KeyDown? ==> o == Outcome(Press(s, e.code), [])
    ensures s.active && e.TouchStart? ==> o == Outcome(Press(s, e.key), [])
    ensures s.active && e.KeyUp? ==> o == Outcome(ReleaseKey(s, e.code), [])
    ensures s.active && e.TouchEnd? ==> o == Outcome(ReleaseTouch(s, e.key), [])
  {
    if !s.active then Outcome(s, [])
    else
      ConsumesRefl(s.blocks);
      match e
      case Frame(viewport) => FrameEndings(s, viewport); Tick(s, viewport)
      case KeyDown(code) => Outcome(Press(s, code), [])
      case KeyUp(code) => Outcome(ReleaseKey(s, code), [])
      case TouchStart(key) => Outcome(Press(s, key), [])
      case TouchEnd(key) => Outcome(ReleaseTouch(s, key), [])
      case QuestionTimer => Outcome(if s.pending.Some? then OpenQuestion(s) else s, [])
      case CompletionTimer => CompletionFires(s)
      case Answer(optionId) =>
        if s.current.Some? && s.feedback.None? then
          MarkUsedConsumes(s.blocks, s.current.value.id);
          Outcome(HandleAnswer(s, optionId), [])
        else Outcome(s, [])
      case CloseFeedback => if s.feedback.Some? then Close(s) else Outcome(s, [])
  }

  /** A frame reports at most one ending, and reporting one ends it. */
  lemma FrameEndings(s: Session, viewport: real)
    requires s.active
    ensures |Filter(Tick(s, viewport).signals, IsEnding)| <= 1
    ensures |Filter(Tick(s, viewport).signals, IsEnding)| == 1 ==> !Tick(s, viewport).session.active
    ensures Consumes(s.blocks, Tick(s, viewport).session.blocks)
  {
    ConsumesRefl(s.blocks);
    if !Paused(s) {
      SettleSignals(s, Motion(s), viewport);
    } else {
      FilterNone(Tick(s, viewport).signals, IsEnding);
    }
  }

  /** The signals of a frame's bookkeeping, counted: at most one ending,
      which ends the session, and at most one celebration start, which only
      happens before the celebration. */
  lemma SettleSignals(s: Session, v: VerticalOutcome, viewport: real)
    ensures var o := Settle(s, v, viewport);
      && |Filter(o.signals, IsEnding)| <= 1
      && (|Filter(o.signals, IsEnding)| == 1 ==> !o.session.active)
      && |Filter(o.signals, IsCelebrationStart)| <= 1
      && (|Filter(o.signals, IsCelebrationStart)| == 1 ==> !s.finalCelebration && o.session.finalCelebration)
  {
    var o := Settle(s, v, viewport);
    var asked := if |v.triggered| == 1 then [QuestionPending(v.triggered[0].id)] else [];
    var celebrated := if StartsCelebration(s, v.player) then [FinalCelebrationStarted] else [];
    var ended := if v.player.y > FallLimit then [GameOver] else [];
    assert o.signals == asked + celebrated + ended;
    SignalCounts(asked, celebrated, ended);
  }

  /** Counting in a frame's signal list: an optional announcement, an
      optional celebration start, an optional game over. */
  lemma SignalCounts(a: seq<Signal>, b: seq<Signal>, c: seq<Signal>)
    requires |a| <= 1 && (|a| == 1 ==> a[0].QuestionPending?)
    requires |b| <= 1 && (|b| == 1 ==> b[0].FinalCelebrationStarted?)
    requires |c| <= 1 && (|c| == 1 ==> c[0].GameOver?)
    ensures |Filter(a + b + c, IsEnding)| == |c|
    ensures |Filter(a + b + c, IsCelebrationStart)| == |b|
  {
    CountThree(a, b, c, IsEnding);
    CountThree(a, b, c, IsCelebrationStart);
  }

  lemma CountThree(a: seq<Signal>, b: seq<Signal>, c: seq<Signal>, keep: Signal -> bool)
    ensures |Filter(a + b + c, keep)| == |Filter(a, keep)| + |Filter(b, keep)| + |Filter(c, keep)|
  {
    FilterConcat(a, b, keep);
    FilterConcat(a + b, c, keep);
  }

  /** Tiles keep their place and shape; only the consumed flag changes, and
      only from false to true. */
  predicate Consumes(before: seq<Block>, after: seq<Block>) {
    && |before| == |after|
    && forall i :: 0 <= i < |before| ==>
         after[i] == before[i].(isUsed := after[i].isUsed) && (before[i].isUsed ==> after[i].isUsed)
  }

  lemma ConsumesRefl(bs: seq<Block>)
    ensures Consumes(bs, bs)
  {
  }

  lemma ConsumesTrans(a: seq<Block>, b: seq<Block>, c: seq<Block>)
    requires Consumes(a, b) && Consumes(b, c)
    ensures Consumes(a, c)
  {
    forall i | 0 <= i < |a|
      ensures c[i] == a[i].(isUsed := c[i].isUsed) && (a[i].isUsed ==> c[i].isUsed)
    {
      assert b[i] == a[i].(isUsed := b[i].isUsed);
      assert c[i] == b[i].(isUsed := c[i].isUsed);
    }
  }

  lemma MarkUsedConsumes(bs: seq<Block>, qid: int)
    ensures Consumes(bs, MarkUsed(bs, qid))
  {
  }

  /** A sequence of events, from the left. */
  function Run(s: Session, es: seq<Input>): Outcome
    decreases |es|
  {
    if |es| == 0 then Outcome(s, [])
    else
      var first := Step(s, es[0]);
      var rest := Run(first.session, es[1..]);
      Outcome(rest.session, first.signals + rest.signals)
  }

  /** An ended session stays ended and silent. */
  lemma {:induction false} EndedStaysEnded(s: Session, es: seq<Input>)
    requires !s.active
    ensures Run(s, es) == Outcome(s, [])
    decreases |es|
  {
    if |es| > 0 {
      EndedStaysEnded(s, es[1..]);
    }
  }

  /** Over any run the session reports at most one ending (game over or
      completion), and after it nothing more. */
  lemma {:induction false} AtMostOneEnding(s: Session, es: seq<Input>)
    ensures |Filter(Run(s, es).signals, IsEnding)| <= 1
    ensures |Filter(Run(s, es).signals, IsEnding)| == 1 ==> !Run(s, es).session.active
    ensures !s.active ==> |Filter(Run(s, es).signals, IsEnding)| == 0
    decreases |es|
  {
    if |es| == 0 {
    } else if !s.active {
      EndedStaysEnded(s, es);
    } else {
      var first := Step(s, es[0]);
      var rest := Run(first.session, es[1..]);
      AtMostOneEnding(first.session, es[1..]);
      FilterConcat(first.signals, rest.signals, IsEnding);
      if !first.session.active {
        EndedStaysEnded(first.session, es[1..]);
      }
    }
  }

  /** Over any run tiles are never moved, added or removed, and consumed
      tiles stay consumed. */
  lemma {:induction false} RunConsumes(s: Session, es: seq<Input>)
    ensures Consumes(s.blocks, Run(s, es).session.blocks)
    decreases |es|
  {
    if |es| == 0 {
      ConsumesRefl(s.blocks);
    } else {
      var first := Step(s, es[0]);
      RunConsumes(first.session, es[1..]);
      ConsumesTrans(s.blocks, first.session.blocks, Run(first.session, es[1..]).session.blocks);
    }
  }

  // ---------------------------------------------------------------------
  // The session invariant

  /** The score is always ten points per answered question; the latch is
      set exactly while a struck question waits to open, and then no
      question is open; feedback belongs to an open question, and the
      celebration shows exactly with correct feedback; a scheduled
      completion reports the full score of every question. */
  predicate Inv(s: Session) {
    && s.score == 10 * s.answeredCount
    && 0 <= s.answeredCount
    && (s.latch <==> s.pending.Some?)
    && (s.pending.Some? ==> s.current.None? && s.feedback.None?)
    && (s.feedback.Some? ==> s.current.Some?)
    && (s.showCelebration <==> s.feedback.Some? && s.feedback.value.isCorrect)
    && (s.completion.Some? ==> s.finalCelebration && s.completion.value == 10 * |s.questions|)
  }

  lemma StartInv(levels: seq<Types.Level>, ds: seq<Draw>)
    requires ValidDraws(Types.AllQuestions(levels), ds)
    ensures Inv(Start(levels, ds))
  {
  }

  lemma StepInv(s: Session, e: Input)
    requires Inv(s)
    ensures Inv(Step(s, e).session)
    ensures Step(s, e).session.questions == s.questions
  {
    if s.active && e.Frame? {
      FrameInv(s, e.viewport);
    }
  }

  /** A frame keeps the invariant: it only sets the latch together with a
      pending question, and schedules completion only at full score. */
  lemma FrameInv(s: Session, viewport: real)
    requires Inv(s)
    ensures Inv(Tick(s, viewport).session)
  {
  }

  lemma {:induction false} RunInv(s: Session, es: seq<Input>)
    requires Inv(s)
    ensures Inv(Run(s, es).session)
    ensures Run(s, es).session.questions == s.questions
    decreases |es|
  {
    if |es| > 0 {
      StepInv(s, es[0]);
      RunInv(Step(s, es[0]).session, es[1..]);
    }
  }

  /** The final celebration starts at most once over any run, and never if
      it had already started. */
  lemma {:induction false} CelebrationStartsOnce(s: Session, es: seq<Input>)
    ensures |Filter(Run(s, es).signals, IsCelebrationStart)| <= 1
    ensures s.finalCelebration ==> |Filter(Run(s, es).signals, IsCelebrationStart)| == 0
    decreases |es|
  {
    if |es| > 0 {
      var first := Step(s, es[0]);
      var rest := Run(first.session, es[1..]);
      CelebrationStartsOnce(first.session, es[1..]);
      FilterConcat(first.signals, rest.signals, IsCelebrationStart);
      CelebrationStepFacts(s, es[0]);
    }
  }

  lemma CelebrationStepFacts(s: Session, e: Input)
    ensures |Filter(Step(s, e).signals, IsCelebrationStart)| <= 1
    ensures s.finalCelebration ==> Step(s, e).session.finalCelebration
    ensures |Filter(Step(s, e).signals, IsCelebrationStart)| == 1 ==> !s.finalCelebration && Step(s, e).session.finalCelebration
  {
    if s.active && e.Frame? && !Paused(s) {
      SettleSignals(s, Motion(s), e.viewport);
    } else {
      FilterNone(Step(s, e).signals, IsCelebrationStart);
    }
  }

  /** Whenever the session reports completion, the score it reports is the
      full score: ten points for every question. */
  lemma {:induction false} CompletionReportsFullScore(s: Session, es: seq<Input>, v: int)
    requires Inv(s)
    requires GameComplete(v) in Run(s, es).signals
    ensures v == 10 * |s.questions|
    decreases |es|
  {
    if |es| > 0 {
      var first := Step(s, es[0]);
      StepInv(s, es[0]);
      if GameComplete(v) in first.signals {
        if es[0].Frame? && s.active && !Paused(s) {
          SettleAnnounces(s, Motion(s), es[0].viewport);
        }
      } else {
        CompletionReportsFullScore(first.session, es[1..], v);
      }
    }
  }
}

=== FILE: classic.dfy ===
/** The application shell (`App`): choosing a mode, the classic
    question-by-question walk through the levels, the adventure's two
    callbacks, and the completion screen's percentage and title. */
module Classic {
  import opened Optional
  import Types
  import Adventure

  datatype Mode = ClassicMode | AdventureMode

  /** The shell's state; `selected` is the option picked for the current
      classic question, if any. */
  datatype App = App(
    state: Types.GameState,
    mode: Mode,
    levelIndex: nat,
    questionIndex: nat,
    selected: Option<string>,
    showFeedback: bool,
    score: int)

  /** The shell at launch: the start screen, adventure mode preselected. */
  function Launch(): App {
    App(Types.Start, AdventureMode, 0, 0, None, false, 0)
  }

  /** Starting a game picks the mode and zeroes the score; the classic
      mode opens with its level's transition screen, the adventure goes
      straight to play. The indices are left as they are. */
  function StartGame(a: App, m: Mode): (r: App)
    ensures r.mode == m && r.score == 0
    ensures r.state == (if m == ClassicMode then Types.LevelTransition else Types.Playing)
    ensures r.levelIndex == a.levelIndex && r.questionIndex == a.questionIndex
    ensures r.selected == a.selected && r.showFeedback == a.showFeedback
  {
    a.(mode := m, score := 0, state := if m == ClassicMode then Types.LevelTransition else Types.Playing)
  }

  /** Leaving a level's transition screen. */
  function StartLevel(a: App): (r: App)
    ensures r.state == Types.Playing
    ensures r == a.(state := Types.Playing)
  {
    a.(state := Types.Playing)
  }

  /** The indices name an existing question. */
  predicate ValidIndices(levels: seq<Types.Level>, a: App) {
    a.levelIndex < |levels| && a.questionIndex < |levels[a.levelIndex].questions|
  }

  function CurrentQuestion(levels: seq<Types.Level>, a: App): Types.Question
    requires ValidIndices(levels, a)
  {
    levels[a.levelIndex].questions[a.questionIndex]
  }

  /** Picking an option of the current classic question, which the screen
      allows only while no feedback is shown: the feedback appears, and the
      score grows by exactly 10 when the option is the correct one and is
      otherwise unchanged. */
  function SelectOption(levels: seq<Types.Level>, a: App, optionId: string): (r: App)
    requires ValidIndices(levels, a) && !a.showFeedback
    ensures r.selected == Some(optionId) && r.showFeedback
    ensures r.score - a.score == (if optionId == CurrentQuestion(levels, a).correctAnswer then 10 else 0)
    ensures r == a.(selected := r.selected, showFeedback := true, score := r.score)
  {
    var shown := a.(selected := Some(optionId), showFeedback := true);
    if optionId == CurrentQuestion(levels, a).correctAnswer then shown.(score := a.score + 10) else shown
  }

  /** Moving on after the feedback: the next question of the level, else
      the first question of the next level behind its transition screen,
      else the completion screen. The selection and feedback are cleared. */
  function Next(levels: seq<Types.Level>, a: App): (r: App)
    requires a.levelIndex < |levels|
    ensures r.selected.None? && !r.showFeedback && r.score == a.score && r.mode == a.mode
    ensures r.state == a.state || r.state == Types.LevelTransition || r.state == Types.Completed
    ensures r.state == Types.Completed && a.state != Types.Completed ==>
      r.levelIndex == a.levelIndex && r.questionIndex == a.questionIndex
  {
    var cleared := a.(selected := None, showFeedback := false);
    if (a.questionIndex as int) < |levels[a.levelIndex].questions| - 1 then
      cleared.(questionIndex := a.questionIndex + 1)
    else if (a.levelIndex as int) < |levels| - 1 then
      cleared.(levelIndex := a.levelIndex + 1, questionIndex := 0, state := Types.LevelTransition)
    else
      cleared.(state := Types.Completed)
  }

  /** Going back to the start screen resets everything but the mode. */
  function Restart(a: App): (r: App)
    ensures r == Launch().(mode := a.mode)
  {
    App(Types.Start, a.mode, 0, 0, None, false, 0)
  }

  /** The adventure's completion callback: the completion screen with the
      adventure's score. */
  function OnGameComplete(a: App, finalScore: int): (r: App)
    ensures r.state == Types.Completed && r.score == finalScore
    ensures r == a.(state := r.state, score := r.score)
  {
    a.(score := finalScore, state := Types.Completed)
  }

  /** The adventure's game-over callback: the game-over screen, the score
      kept. */
  function OnGameOver(a: App): (r: App)
    ensures r.state == Types.GameOver && r.score == a.score
    ensures r == a.(state := r.state)
  {
    a.(state := Types.GameOver)
  }

  /** The shell receiving the adventure's signals in order; announcements
      and the celebration start concern the adventure alone. */
  function Deliver(a: App, signals: seq<Adventure.Signal>): App
    decreases |signals|
  {
    if |signals| == 0 then a
    else
      var next := match signals[0]
        case GameOver => OnGameOver(a)
        case GameComplete(v) => OnGameComplete(a, v)
        case _ => a;
      Deliver(next, signals[1..])
  }

  /** With the completion timer as written, a fall after the finish shows
      the game-over screen and then, when the timer runs out, replaces it
      with the completion screen and the full score. */
  lemma GameOverOverridden(a: App)
    ensures Deliver(a, [Adventure.GameOver, Adventure.GameComplete(30)]).state == Types.Completed
    ensures Deliver(a, [Adventure.GameOver]).state == Types.GameOver
  {
  }

  // ---------------------------------------------------------------------
  // The classic walk

  predicate AllNonEmpty(levels: seq<Types.Level>) {
    forall i :: 0 <= i < |levels| ==> |levels[i].questions| > 0
  }

  /** The position of the current question in the flattened order. */
  function Position(levels: seq<Types.Level>, a: App): nat
    requires a.levelIndex < |levels|
  {
    Types.Rank(levels, a.levelIndex, a.questionIndex)
  }

  lemma TotalPrefix(levels: seq<Types.Level>, li: nat)
    requires li < |levels|
    ensures Types.TotalQuestions(levels[..li + 1]) == Types.TotalQuestions(levels[..li]) + |levels[li].questions|
  {
    assert levels[..li + 1][..li] == levels[..li];
  }

  /** Every question position lies below the total. */
  lemma PositionBelowTotal(levels: seq<Types.Level>, a: App)
    requires ValidIndices(levels, a)
    ensures Position(levels, a) < Types.TotalQuestions(levels) == |Types.AllQuestions(levels)|
    ensures CurrentQuestion(levels, a) == Types.AllQuestions(levels)[Position(levels, a)]
  {
    Types.AllQuestionsCount(levels);
  }

  /** Within a level, moving on is a step of one in the flattened order. */
  lemma NextWithinLevel(levels: seq<Types.Level>, a: App)
    requires ValidIndices(levels, a) && a.questionIndex + 1 < |levels[a.levelIndex].questions|
    ensures Next(levels, a) == a.(questionIndex := a.questionIndex + 1, selected := None, showFeedback := false)
    ensures Position(levels, Next(levels, a)) == Position(levels, a) + 1
    ensures Position(levels, a) + 1 < Types.TotalQuestions(levels)
  {
    PositionBelowTotal(levels, Next(levels, a));
  }

  /** From the last question of a level that is not the last, moving on is
      a step of one to the first question of the next level. */
  lemma NextAcrossLevels(levels: seq<Types.Level>, a: App)
    requires AllNonEmpty(levels) && ValidIndices(levels, a)
    requires a.questionIndex + 1 == |levels[a.levelIndex].questions| && a.levelIndex + 1 < |levels|
    ensures Next(levels, a) == a.(levelIndex := a.levelIndex + 1, questionIndex := 0, state := Types.LevelTransition,
                                  selected := None, showFeedback := false)
    ensures Position(levels, Next(levels, a)) == Position(levels, a) + 1
    ensures Position(levels, a) + 1 < Types.TotalQuestions(levels)
  {
    TotalPrefix(levels, a.levelIndex);
    assert 0 < |levels[a.levelIndex + 1].questions|;
    PositionBelowTotal(levels, Next(levels, a));
  }

  /** The last question of the last level is the last in the flattened
      order; moving on from it completes. */
  lemma NextAtEnd(levels: seq<Types.Level>, a: App)
    requires ValidIndices(levels, a)
    requires a.questionIndex + 1 == |levels[a.levelIndex].questions| && a.levelIndex + 1 == |levels|
    ensures Next(levels, a) == a.(state := Types.Completed, selected := None, showFeedback := false)
    ensures Position(levels, a) + 1 == Types.TotalQuestions(levels)
  {
    TotalPrefix(levels, a.levelIndex);
    assert levels[..a.levelIndex + 1] == levels;
  }

  /** Over levels that all have questions, moving on from a question (not
      yet on the completion screen) goes to the next question in the
      flattened order, entering a new level only at its first question and
      behind its transition screen; from the very last question it
      completes instead. */
  lemma NextAdvances(levels: seq<Types.Level>, a: App)
    requires AllNonEmpty(levels) && ValidIndices(levels, a) && a.state != Types.Completed
    ensures var r := Next(levels, a);
      && ValidIndices(levels, r)
      && (r.state == Types.Completed <==> Position(levels, a) + 1 == Types.TotalQuestions(levels))
      && (r.state != Types.Completed ==> Position(levels, r) == Position(levels, a) + 1)
      && (r.levelIndex != a.levelIndex ==>
            r.levelIndex == a.levelIndex + 1 && r.questionIndex == 0 && r.state == Types.LevelTransition)
      && (r.levelIndex == a.levelIndex ==> r.state == a.state || r.state == Types.Completed)
  {
    if a.questionIndex + 1 < |levels[a.levelIndex].questions| {
      NextWithinLevel(levels, a);
    } else if a.levelIndex + 1 < |levels| {
      NextAcrossLevels(levels, a);
    } else {
      NextAtEnd(levels, a);
    }
  }

  /** `k` presses of the next button, on levels that all have questions;
      the indices stay valid. */
  function NextTimes(levels: seq<Types.Level>, a: App, k: nat): (r: App)
    requires AllNonEmpty(levels) && ValidIndices(levels, a)
    ensures ValidIndices(levels, r)
    decreases k
  {
    if k == 0 then a
    else
      NextValid(levels, a);
      NextTimes(levels, Next(levels, a), k - 1)
  }

  /** Moving on keeps valid indices valid when every level has questions. */
  lemma NextValid(levels: seq<Types.Level>, a: App)
    requires AllNonEmpty(levels) && ValidIndices(levels, a)
    ensures ValidIndices(levels, Next(levels, a))
  {
  }

  /** The last of `k` presses. */
  lemma {:induction false} NextTimesLast(levels: seq<Types.Level>, a: App, k: nat)
    requires AllNonEmpty(levels) && ValidIndices(levels, a) && k > 0
    ensures NextTimes(levels, a, k) == Next(levels, NextTimes(levels, a, k - 1))
    decreases k
  {
    if k > 1 {
      NextValid(levels, a);
      NextTimesLast(levels, Next(levels, a), k - 1);
    }
  }

  /** The classic walk from the first question of the first level moves
      one position per press: after `k` presses, while questions remain,
      it sits on position `k` and has not completed. */
  lemma {:induction false} WalkPosition(levels: seq<Types.Level>, a: App, k: nat)
    requires AllNonEmpty(levels) && ValidIndices(levels, a)
    requires a.levelIndex == 0 && a.questionIndex == 0 && a.state != Types.Completed
    requires k < Types.TotalQuestions(levels)
    ensures NextTimes(levels, a, k).state != Types.Completed
    ensures Position(levels, NextTimes(levels, a, k)) == k
  {
    if k == 0 {
      assert levels[..0] == [];
    } else {
      WalkPosition(levels, a, k - 1);
      NextTimesLast(levels, a, k);
      NextAdvances(levels, NextTimes(levels, a, k - 1));
    }
  }

  /** The walk visits the questions of every level, level by level, each
      once and in order: after `k` presses it shows the `k`-th question of
      the flattened list. */
  lemma WalkVisitsInOrder(levels: seq<Types.Level>, a: App, k: nat)
    requires AllNonEmpty(levels) && ValidIndices(levels, a)
    requires a.levelIndex == 0 && a.questionIndex == 0 && a.state != Types.Completed
    requires k < |Types.AllQuestions(levels)|
    ensures NextTimes(levels, a, k).state != Types.Completed
    ensures CurrentQuestion(levels, NextTimes(levels, a, k)) == Types.AllQuestions(levels)[k]
  {
    Types.AllQuestionsCount(levels);
    WalkPosition(levels, a, k);
    PositionBelowTotal(levels, NextTimes(levels, a, k));
  }

  /** The questions of earlier levels are never more than those of a
      longer prefix. */
  lemma {:induction false} TotalMonotone(levels: seq<Types.Level>, i: nat, j: nat)
    requires i <= j <= |levels|
    ensures Types.TotalQuestions(levels[..i]) <= Types.TotalQuestions(levels[..j])
    decreases j - i
  {
    if i < j {
      TotalMonotone(levels, i, j - 1);
      TotalPrefix(levels, j - 1);
    }
  }

  /** Distinct questions have distinct positions in the flattened order. */
  lemma PositionInjective(levels: seq<Types.Level>, a: App, b: App)
    requires ValidIndices(levels, a) && ValidIndices(levels, b)
    requires Position(levels, a) == Position(levels, b)
    ensures a.levelIndex == b.levelIndex && a.questionIndex == b.questionIndex
  {
    if a.levelIndex < b.levelIndex {
      TotalPrefix(levels, a.levelIndex);
      TotalMonotone(levels, a.levelIndex + 1, b.levelIndex);
    } else if b.levelIndex < a.levelIndex {
      TotalPrefix(levels, b.levelIndex);
      TotalMonotone(levels, b.levelIndex + 1, a.levelIndex);
    }
  }

  /** Every question of every level is shown by the walk, at the press
      given by its rank; since the walk's position grows by one per press,
      each is shown exactly once. */
  lemma WalkVisitsEveryQuestion(levels: seq<Types.Level>, a: App, li: nat, qi: nat)
    requires AllNonEmpty(levels) && ValidIndices(levels, a)
    requires a.levelIndex == 0 && a.questionIndex == 0 && a.state != Types.Completed
    requires li < |levels| && qi < |levels[li].questions|
    ensures var r := NextTimes(levels, a, Types.Rank(levels, li, qi));
      r.levelIndex == li && r.questionIndex == qi && r.state != Types.Completed
  {
    var b := a.(levelIndex := li, questionIndex := qi);
    PositionBelowTotal(levels, b);
    var k := Types.Rank(levels, li, qi);
    WalkPosition(levels, a, k);
    PositionInjective(levels, NextTimes(levels, a, k), b);
  }

  /** After as many presses as there are questions, the walk has reached
      the completion screen. */
  lemma WalkCompletes(levels: seq<Types.Level>, a: App)
    requires AllNonEmpty(levels) && ValidIndices(levels, a)
    requires a.levelIndex == 0 && a.questionIndex == 0 && a.state != Types.Completed
    ensures NextTimes(levels, a, Types.TotalQuestions(levels)).state == Types.Completed
  {
    var n := Types.TotalQuestions(levels);
    PositionBelowTotal(levels, a);
    WalkPosition(levels, a, n - 1);
    NextTimesLast(levels, a, n);
    NextAdvances(levels, NextTimes(levels, a, n - 1));
  }

  // ---------------------------------------------------------------------
  // The completion screen

  /** Ten points per question of every level. */
  function MaxScore(levels: seq<Types.Level>): nat {
    10 * Types.TotalQuestions(levels)
  }

  /** The score as a whole percentage of the maximum, rounded half up
      (`Math.round`), or 0 when there is nothing to score: the integer
      nearest to the exact percentage, halves going up. */
  function Percentage(score: int, maxScore: int): (r: int)
    ensures maxScore <= 0 ==> r == 0
    ensures maxScore > 0 ==>
      (r as real) - 0.5 <= (score as real) / (maxScore as real) * 100.0 < (r as real) + 0.5
  {
    if maxScore > 0 then ((score as real) / (maxScore as real) * 100.0 + 0.5).Floor else 0
  }

  /** Comparing a quotient with a constant, by multiplying out. */
  lemma ScaleCompare(q: real, m: real, c: real)
    requires m > 0.0
    ensures q <= c <==> q * m <= c * m
  {
    if q <= c {
      assert (c - q) * m >= 0.0;
    } else {
      assert (q - c) * m > 0.0;
    }
  }

  /** A score between 0 and the maximum gives a percentage between 0 and
      100, and 100 exactly when the score is at least 99.5% of the
      maximum. */
  lemma PercentageRange(score: int, maxScore: int)
    requires maxScore > 0 && 0 <= score <= maxScore
    ensures 0 <= Percentage(score, maxScore) <= 100
    ensures Percentage(score, maxScore) == 100 <==> 200 * score >= 199 * maxScore
  {
    var m := maxScore as real;
    var q := (score as real) / m;
    assert q * m == score as real;
    assert 0.0 * m <= q * m <= 1.0 * m;
    ScaleCompare(q, m, 1.0);
    ScaleCompare(0.0, m, q);
    ScaleCompare(0.995, m, q);
    assert (200 * score) as real == 200.0 * (score as real);
    assert (199 * maxScore) as real == 199.0 * m;
    RoundedRatio(q, Percentage(score, maxScore));
  }

  /** The nearest whole percentage of a ratio in [0, 1]. */
  lemma RoundedRatio(q: real, r: int)
    requires 0.0 <= q <= 1.0
    requires (r as real) - 0.5 <= q * 100.0 < (r as real) + 0.5
    ensures 0 <= r <= 100
    ensures r == 100 <==> q >= 0.995
  {
  }

  /** A full score is 100%. */
  lemma PercentageFull(maxScore: int)
    requires maxScore > 0
    ensures Percentage(maxScore, maxScore) == 100
  {
    assert (maxScore as real) / (maxScore as real) == 1.0;
  }

  datatype Title = CommunicationMaster | GoldPhysician | PromisingIntern | RisingStar

  /** The title on the completion screen: a perfect percentage, then 80
      and 60 as thresholds, else the entry title. */
  function TitleFor(percentage: int): (t: Title)
    ensures t == CommunicationMaster <==> percentage == 100
    ensures t == GoldPhysician <==> percentage != 100 && percentage >= 80
    ensures t == PromisingIntern <==> 60 <= percentage < 80
    ensures t == RisingStar <==> percentage < 60
  {
    if percentage == 100 then CommunicationMaster
    else if percentage >= 80 then GoldPhysician
    else if percentage >= 60 then PromisingIntern
    else RisingStar
  }

  function Tier(t: Title): nat {
    match t
    case RisingStar => 0
    case PromisingIntern => 1
    case GoldPhysician => 2
    case CommunicationMaster => 3
  }

  /** Up to 100, a higher percentage never earns a lower title. */
  lemma TitleMonotone(p1: int, p2: int)
    requires p1 <= p2 <= 100
    ensures Tier(TitleFor(p1)) <= Tier(TitleFor(p2))
  {
  }

  /** A completed adventure reports ten points per question, so its
      completion screen always shows 100% and the top title. */
  lemma AdventureCompletionIsPerfect(levels: seq<Types.Level>, a: App, s: Adventure.Session, es: seq<Adventure.Input>, v: int)
    requires Adventure.Inv(s) && s.questions == Types.AllQuestions(levels)
    requires Adventure.GameComplete(v) in Adventure.Run(s, es).signals
    requires Types.TotalQuestions(levels) > 0
    ensures var r := OnGameComplete(a, v);
      Percentage(r.score, MaxScore(levels)) == 100 && TitleFor(Percentage(r.score, MaxScore(levels))) == CommunicationMaster
  {
    Adventure.CompletionReportsFullScore(s, es, v);
    Types.AllQuestionsCount(levels);
    PercentageFull(MaxScore(levels));
  }
}

=== FILE: level.dfy ===
/** The adventure level generator (`generateLevel`): a start platform, one
    platform-and-cluster section per question, then a podium with the finish
    trigger and a landing strip. Every tile is a 70 x 70 square; the only
    randomness is one pair of rolls per question, passed in as a `Draw`. */
module Level {
  import opened Optional
  import opened Seqs
  import Types

  const BlockSize: real := 70.0
  /** The top of the floor row, fixed whatever the screen size. */
  const GroundY: real := 1000.0

  datatype Category = GroundTile | BrickTile | QuestionTile | FinishTile | PodiumTile

  /** The render key of a tile; it names the place in the layout the tile
      was generated for. */
  datatype BlockId =
    | StartGround(i: nat)
    | GapGround(index: nat, i: nat)
    | PlatformGround(index: nat, i: nat)
    | QuestionBlock(qid: int)
    | BrickBlock(index: nat, k: nat)
    | PreFinishGround(i: nat)
    | PodiumBase(i: nat)
    | PodiumMid(i: nat)
    | PodiumHigh(i: nat)
    | PodiumTop
    | FinishFlag
    | EndGround(i: nat)

  /** A tile. Only question tiles carry a question identifier; `isUsed` is
      the consumed flag of a question tile (absent, hence false, elsewhere). */
  datatype Block = Block(
    id: BlockId,
    x: real, y: real,
    width: real, height: real,
    category: Category,
    questionId: Option<int>,
    isUsed: bool)

  datatype Layout = Layout(blocks: seq<Block>, width: real)

  /** The two random numbers drawn for one question, each in [0, 1). */
  datatype Draw = Draw(offsetRoll: real, gapRoll: real)

  predicate ValidDraw(d: Draw) {
    0.0 <= d.offsetRoll < 1.0 && 0.0 <= d.gapRoll < 1.0
  }

  /** One valid draw per question. */
  predicate ValidDraws(qs: seq<Types.Question>, ds: seq<Draw>) {
    |ds| == |qs| && forall i :: 0 <= i < |ds| ==> ValidDraw(ds[i])
  }

  /** Half the time the two lower tiers are lifted by one tile. */
  function RandomOffset(d: Draw): real {
    if d.offsetRoll > 0.5 then BlockSize else 0.0
  }

  /** The horizontal spread of the wider patterns, in tiles. */
  function GapMultiplier(d: Draw): real {
    1.5 + d.gapRoll * 0.5
  }

  function Tile(id: BlockId, x: real, y: real, c: Category): Block {
    Block(id, x, y, BlockSize, BlockSize, c, None, false)
  }

  function QuestionAt(q: Types.Question, x: real, y: real): Block {
    Block(QuestionBlock(q.id), x, y, BlockSize, BlockSize, QuestionTile, Some(q.id), false)
  }

  function BrickAt(index: nat, k: nat, x: real, y: real): Block {
    Tile(BrickBlock(index, k), x, y, BrickTile)
  }

  /** The straight rows the generator lays on the floor line. */
  datatype RowKind = StartRow | GapRow(index: nat) | PlatformRow(index: nat) | PreFinishRow | PodiumBaseKind | EndRow

  function RowCategory(kind: RowKind): Category {
    if kind == PodiumBaseKind then PodiumTile else GroundTile
  }

  function RowId(kind: RowKind, i: nat): BlockId {
    match kind
    case StartRow => StartGround(i)
    case GapRow(index) => GapGround(index, i)
    case PlatformRow(index) => PlatformGround(index, i)
    case PreFinishRow => PreFinishGround(i)
    case PodiumBaseKind => PodiumBase(i)
    case EndRow => EndGround(i)
  }

  /** Tile `i` of a row, at `x` on the floor line. */
  function RowTile(kind: RowKind, i: nat, x: real): Block {
    Tile(RowId(kind, i), x, GroundY, RowCategory(kind))
  }

  /** `n` tiles of a row side by side from `x0`: the loop that pushes a
      tile and advances by one tile width. */
  function Row(kind: RowKind, x0: real, n: nat): (r: seq<Block>)
    ensures |r| == n
    ensures forall i :: 0 <= i < n ==> r[i] == RowTile(kind, i, x0 + BlockSize * (i as real))
  {
    if n == 0 then [] else Row(kind, x0, n - 1) + [RowTile(kind, n - 1, x0 + BlockSize * ((n - 1) as real))]
  }

  /** Ten ground tiles from x = 0. */
  function StartPlatform(): seq<Block> {
    Row(StartRow, 0.0, 10)
  }

  /** Where the section of question `index` begins: after the start
      platform and `index` earlier sections of 15 tiles each. */
  function SectionX(index: nat): real {
    BlockSize * ((10 + 15 * index) as real)
  }

  /** The three-tile cluster of question `q`, around `cx`; the pattern is
      chosen by the question's position modulo 5. */
  function Pattern(q: Types.Question, d: Draw, index: nat, cx: real): seq<Block> {
    var off := RandomOffset(d);
    var h4 := GroundY - BlockSize * 4.0 - off;
    var h5 := GroundY - BlockSize * 5.0 - off;
    var h6 := GroundY - BlockSize * 6.0;
    var h7 := GroundY - BlockSize * 7.0;
    var spread := BlockSize * GapMultiplier(d);
    var pattern := index % 5;
    if pattern == 0 then
      [QuestionAt(q, cx, h5), BrickAt(index, 1, cx - BlockSize * 1.4, h5), BrickAt(index, 2, cx + BlockSize * 1.4, h5)]
    else if pattern == 1 then
      [QuestionAt(q, cx, h7), BrickAt(index, 1, cx - spread, h5), BrickAt(index, 2, cx + spread, h5)]
    else if pattern == 2 then
      [QuestionAt(q, cx, h6), BrickAt(index, 1, cx - spread, h7), BrickAt(index, 2, cx + spread, h7)]
    else if pattern == 3 then
      [BrickAt(index, 1, cx - spread, h4), BrickAt(index, 2, cx, h5), QuestionAt(q, cx + spread, h6)]
    else
      [BrickAt(index, 1, cx - BlockSize * 1.4, h4), BrickAt(index, 2, cx + BlockSize * 1.4, h4), QuestionAt(q, cx, h7)]
  }

  /** The three ground tiles that fill the gap before a section's platform. */
  function GapFill(index: nat): seq<Block> {
    Row(GapRow(index), SectionX(index), 3)
  }

  /** The twelve-tile platform under a question's cluster. */
  function Platform(index: nat): seq<Block> {
    Row(PlatformRow(index), SectionX(index) + BlockSize * 3.0, 12)
  }

  /** The ground of one section: 15 tiles. */
  function SectionGround(index: nat): seq<Block> {
    GapFill(index) + Platform(index)
  }

  /** The section of question `q`: its ground, then its cluster centred six
      tiles back from the end of the platform. */
  function Section(q: Types.Question, d: Draw, index: nat): seq<Block> {
    SectionGround(index) + Pattern(q, d, index, SectionX(index) + BlockSize * 15.0 - BlockSize * 6.0)
  }

  /** The sections of the first `k` questions, in question order. */
  function Sections(qs: seq<Types.Question>, ds: seq<Draw>, k: nat): seq<Block>
    requires k <= |qs| && |ds| == |qs|
  {
    if k == 0 then [] else Sections(qs, ds, k - 1) + Section(qs[k - 1], ds[k - 1], k - 1)
  }

  /** The five ground tiles after the last section. */
  function PreFinish(n: nat): seq<Block> {
    Row(PreFinishRow, SectionX(n), 5)
  }

  /** Where the podium's base begins, after `n` sections. */
  function PodiumX(n: nat): real {
    SectionX(n) + BlockSize * 5.0
  }

  /** The four-tile base row of the podium, on the floor. */
  function PodiumBaseRow(n: nat): seq<Block> {
    Row(PodiumBaseKind, PodiumX(n), 4)
  }

  /** The 3, 2 and 1 tile tiers of the podium, each centred on the one below. */
  function PodiumUpper(n: nat): seq<Block> {
    var x0 := PodiumX(n);
    [ Tile(PodiumMid(0), x0 + 0.5 * BlockSize, GroundY - BlockSize, PodiumTile),
      Tile(PodiumMid(1), x0 + 1.5 * BlockSize, GroundY - BlockSize, PodiumTile),
      Tile(PodiumMid(2), x0 + 2.5 * BlockSize, GroundY - BlockSize, PodiumTile),
      Tile(PodiumHigh(0), x0 + 1.0 * BlockSize, GroundY - BlockSize * 2.0, PodiumTile),
      Tile(PodiumHigh(1), x0 + 2.0 * BlockSize, GroundY - BlockSize * 2.0, PodiumTile),
      Tile(PodiumTop, x0 + 1.5 * BlockSize, GroundY - BlockSize * 3.0, PodiumTile) ]
  }

  /** The finish trigger, standing on the podium's top tile. */
  function FinishBlock(n: nat): Block {
    Tile(FinishFlag, PodiumX(n) + 1.5 * BlockSize, GroundY - BlockSize * 4.0, FinishTile)
  }

  /** The ten landing tiles after the podium. */
  function EndStrip(n: nat): seq<Block> {
    Row(EndRow, PodiumX(n) + BlockSize * 4.0, 10)
  }

  /** After `n` sections: the pre-finish ground, the podium with the finish
      trigger on its top, and the landing strip. */
  function Finale(n: nat): seq<Block> {
    PreFinish(n) + PodiumBaseRow(n) + PodiumUpper(n) + [FinishBlock(n)] + EndStrip(n)
  }

  /** The whole level for the question list `qs`. */
  function GenerateLevel(qs: seq<Types.Question>, ds: seq<Draw>): Layout
    requires ValidDraws(qs, ds)
  {
    var n := |qs|;
    Layout(StartPlatform() + Sections(qs, ds, n) + Finale(n), SectionX(n) + BlockSize * 5.0 + BlockSize * 4.0 + BlockSize * 10.0)
  }
}

=== FILE: level_facts.dfy ===
/** What `generateLevel` guarantees whatever the random draws: the size of
    the level, how many tiles of each category it holds, which question each
    question tile is linked to, that the floor is one unbroken row of tiles,
    and where the clusters may sit. */
module LevelFacts {
  import opened Optional
  import opened Seqs
  import Types
  import opened Level

  /** The tiles of one category. */
  function HasCategory(c: Category): Block -> bool {
    (b: Block) => b.category == c
  }

  function CountCategory(bs: seq<Block>, c: Category): nat {
    |Filter(bs, HasCategory(c))|
  }

  /** The question tiles, in layout order. */
  function QuestionTiles(bs: seq<Block>): seq<Block> {
    Filter(bs, HasCategory(QuestionTile))
  }

  /** A tile of the floor row: a ground tile or a podium base tile. */
  predicate IsFloorTile(b: Block) {
    b.category == GroundTile || b.id.PodiumBase?
  }

  /** The floor tiles, in layout order. */
  function Floor(bs: seq<Block>): seq<Block> {
    Filter(bs, IsFloorTile)
  }

  // ---------------------------------------------------------------------
  // Rows

  /** A row is all of its category. */
  lemma RowCount(kind: RowKind, x0: real, n: nat, c: Category)
    ensures CountCategory(Row(kind, x0, n), c) == if c == RowCategory(kind) then n else 0
  {
    CountUniform(Row(kind, x0, n), RowCategory(kind), c);
  }

  /** A row starting at tile `start` is all floor, a gapless run from there. */
  lemma RowFloor(kind: RowKind, x0: real, n: nat, start: nat)
    requires x0 == BlockSize * (start as real)
    ensures Floor(Row(kind, x0, n)) == Row(kind, x0, n)
    ensures FloorRun(Row(kind, x0, n), start)
  {
    var r := Row(kind, x0, n);
    assert forall i :: 0 <= i < |r| ==> IsFloorTile(r[i]);
    FilterAll(r, IsFloorTile);
    forall i | 0 <= i < n
      ensures r[i].x == BlockSize * ((start + i) as real)
    {
      assert r[i].x == BlockSize * (start as real) + BlockSize * (i as real);
    }
  }

  /** A row lies within any span that holds its first tile and its length. */
  lemma RowTiles(kind: RowKind, x0: real, n: nat, lo: real, hi: real)
    requires lo <= x0 && x0 + BlockSize * (n as real) <= hi
    ensures AllTiles(Row(kind, x0, n), lo, hi)
  {
    var r := Row(kind, x0, n);
    forall i | 0 <= i < n
      ensures TileFacts(r[i]) && lo <= r[i].x && r[i].x + r[i].width <= hi
    {
      assert r[i].x + r[i].width == x0 + BlockSize * ((i + 1) as real);
    }
  }

  // ---------------------------------------------------------------------
  // Size

  lemma {:induction false} SectionsLength(qs: seq<Types.Question>, ds: seq<Draw>, k: nat)
    requires k <= |qs| && |ds| == |qs|
    ensures |Sections(qs, ds, k)| == 18 * k
  {
    if k > 0 {
      SectionsLength(qs, ds, k - 1);
    }
  }

  /** N questions give 36 + 18N tiles and a level 29 + 15N tiles wide,
      whatever the draws. */
  lemma LevelSize(qs: seq<Types.Question>, ds: seq<Draw>)
    requires ValidDraws(qs, ds)
    ensures |GenerateLevel(qs, ds).blocks| == 36 + 18 * |qs|
    ensures GenerateLevel(qs, ds).width == BlockSize * ((29 + 15 * |qs|) as real)
  {
    SectionsLength(qs, ds, |qs|);
  }

  // ---------------------------------------------------------------------
  // Category counts

  lemma CountConcat(a: seq<Block>, b: seq<Block>, c: Category)
    ensures CountCategory(a + b, c) == CountCategory(a, c) + CountCategory(b, c)
  {
    FilterConcat(a, b, HasCategory(c));
  }

  /** A run of tiles all of category `c0`. */
  lemma CountUniform(s: seq<Block>, c0: Category, c: Category)
    requires forall i :: 0 <= i < |s| ==> s[i].category == c0
    ensures CountCategory(s, c) == if c == c0 then |s| else 0
  {
    if c == c0 {
      FilterAll(s, HasCategory(c));
    } else {
      FilterNone(s, HasCategory(c));
    }
  }

  lemma StartCount(c: Category)
    ensures CountCategory(StartPlatform(), c) == if c == GroundTile then 10 else 0
  {
    RowCount(StartRow, 0.0, 10, c);
  }

  /** How many tiles of each category one section holds. */
  function SectionCensus(c: Category): nat {
    match c
    case GroundTile => 15
    case BrickTile => 2
    case QuestionTile => 1
    case _ => 0
  }

  lemma PatternCount(q: Types.Question, d: Draw, index: nat, cx: real, c: Category)
    ensures CountCategory(Pattern(q, d, index, cx), c) == SectionCensus(c) - (if c == GroundTile then 15 else 0)
  {
    var p := Pattern(q, d, index, cx);
    assert p == [p[0], p[1], p[2]];
    FilterThree(p[0], p[1], p[2], HasCategory(c));
  }

  lemma SectionCount(q: Types.Question, d: Draw, index: nat, c: Category)
    ensures CountCategory(Section(q, d, index), c) == SectionCensus(c)
  {
    CountConcat(SectionGround(index), Pattern(q, d, index, SectionX(index) + BlockSize * 15.0 - BlockSize * 6.0), c);
    CountConcat(GapFill(index), Platform(index), c);
    RowCount(GapRow(index), SectionX(index), 3, c);
    RowCount(PlatformRow(index), SectionX(index) + BlockSize * 3.0, 12, c);
    PatternCount(q, d, index, SectionX(index) + BlockSize * 15.0 - BlockSize * 6.0, c);
  }

  lemma {:induction false} SectionsCount(qs: seq<Types.Question>, ds: seq<Draw>, k: nat, c: Category)
    requires k <= |qs| && |ds| == |qs|
    ensures CountCategory(Sections(qs, ds, k), c) == k * SectionCensus(c)
  {
    if k > 0 {
      var earlier := Sections(qs, ds, k - 1);
      var last := Section(qs[k - 1], ds[k - 1], k - 1);
      assert Sections(qs, ds, k) == earlier + last;
      SectionsCount(qs, ds, k - 1, c);
      SectionCount(qs[k - 1], ds[k - 1], k - 1, c);
      CountStep(earlier, last, k, c);
    }
  }

  /** One more section adds one census. */
  lemma CountStep(earlier: seq<Block>, last: seq<Block>, k: nat, c: Category)
    requires k > 0
    requires CountCategory(earlier, c) == (k - 1) * SectionCensus(c)
    requires CountCategory(last, c) == SectionCensus(c)
    ensures CountCategory(earlier + last, c) == k * SectionCensus(c)
  {
    CountConcat(earlier, last, c);
    assert (k - 1) * SectionCensus(c) + SectionCensus(c) == k * SectionCensus(c);
  }

  lemma FinaleCount(n: nat, c: Category)
    ensures CountCategory(Finale(n), c)
         == match c
            case GroundTile => 15
            case PodiumTile => 10
            case FinishTile => 1
            case _ => 0
  {
    var upper := PodiumUpper(n);
    CountConcat(PreFinish(n) + PodiumBaseRow(n) + upper + [FinishBlock(n)], EndStrip(n), c);
    CountConcat(PreFinish(n) + PodiumBaseRow(n) + upper, [FinishBlock(n)], c);
    CountConcat(PreFinish(n) + PodiumBaseRow(n), upper, c);
    CountConcat(PreFinish(n), PodiumBaseRow(n), c);
    RowCount(PreFinishRow, SectionX(n), 5, c);
    RowCount(PodiumBaseKind, PodiumX(n), 4, c);
    CountUniform(upper, PodiumTile, c);
    CountUniform([FinishBlock(n)], FinishTile, c);
    RowCount(EndRow, PodiumX(n) + BlockSize * 4.0, 10, c);
  }

  /** The category census of a level: one question tile and two bricks per
      question, ten podium tiles, exactly one finish trigger, and ground
      everywhere else. */
  lemma LevelCategoryCounts(qs: seq<Types.Question>, ds: seq<Draw>)
    requires ValidDraws(qs, ds)
    ensures CountCategory(GenerateLevel(qs, ds).blocks, QuestionTile) == |qs|
    ensures CountCategory(GenerateLevel(qs, ds).blocks, BrickTile) == 2 * |qs|
    ensures CountCategory(GenerateLevel(qs, ds).blocks, PodiumTile) == 10
    ensures CountCategory(GenerateLevel(qs, ds).blocks, FinishTile) == 1
    ensures CountCategory(GenerateLevel(qs, ds).blocks, GroundTile) == 25 + 15 * |qs|
  {
    LevelCount(qs, ds, QuestionTile);
    LevelCount(qs, ds, BrickTile);
    LevelCount(qs, ds, PodiumTile);
    LevelCount(qs, ds, FinishTile);
    LevelCount(qs, ds, GroundTile);
  }

  /** The census of a level of `n` questions. */
  function LevelCensus(n: nat, c: Category): nat {
    match c
    case GroundTile => 25 + 15 * n
    case BrickTile => 2 * n
    case QuestionTile => n
    case PodiumTile => 10
    case FinishTile => 1
  }

  /** A level's count of one category: the start platform's, the sections'
      and the finale's together. */
  lemma LevelCount(qs: seq<Types.Question>, ds: seq<Draw>, c: Category)
    requires ValidDraws(qs, ds)
    ensures CountCategory(GenerateLevel(qs, ds).blocks, c) == LevelCensus(|qs|, c)
  {
    var n := |qs|;
    var start, middle, finale := StartPlatform(), Sections(qs, ds, n), Finale(n);
    assert GenerateLevel(qs, ds).blocks == start + middle + finale;
    CountConcat(start + middle, finale, c);
    CountConcat(start, middle, c);
    SectionsCount(qs, ds, n, c);
    StartCount(c);
    FinaleCount(n, c);
  }

  // ---------------------------------------------------------------------
  // Question links

  /** `tiles` link, in order, the first `k` questions of `qs`, and none of
      them is consumed. */
  predicate LinksPrefix(tiles: seq<Block>, qs: seq<Types.Question>, k: nat)
    requires k <= |qs|
  {
    && |tiles| == k
    && forall i :: 0 <= i < k ==>
         tiles[i].questionId == Some(qs[i].id) && tiles[i].id == QuestionBlock(qs[i].id) && !tiles[i].isUsed
  }

  /** The one question tile of a section is linked to the section's question. */
  predicate LinksOne(tiles: seq<Block>, q: Types.Question) {
    |tiles| == 1 && tiles[0].questionId == Some(q.id) && tiles[0].id == QuestionBlock(q.id) && !tiles[0].isUsed
  }

  lemma LinksExtend(t1: seq<Block>, t2: seq<Block>, qs: seq<Types.Question>, k: nat)
    requires k < |qs| && LinksPrefix(t1, qs, k) && LinksOne(t2, qs[k])
    ensures LinksPrefix(t1 + t2, qs, k + 1)
  {
  }

  lemma SectionQuestionTile(q: Types.Question, d: Draw, index: nat)
    ensures LinksOne(QuestionTiles(Section(q, d, index)), q)
  {
    var cx := SectionX(index) + BlockSize * 15.0 - BlockSize * 6.0;
    var p := Pattern(q, d, index, cx);
    FilterConcat(SectionGround(index), p, HasCategory(QuestionTile));
    FilterConcat(GapFill(index), Platform(index), HasCategory(QuestionTile));
    RowCount(GapRow(index), SectionX(index), 3, QuestionTile);
    RowCount(PlatformRow(index), SectionX(index) + BlockSize * 3.0, 12, QuestionTile);
    assert p == [p[0], p[1], p[2]];
    FilterThree(p[0], p[1], p[2], HasCategory(QuestionTile));
  }

  lemma {:induction false} SectionsQuestionTiles(qs: seq<Types.Question>, ds: seq<Draw>, k: nat)
    requires k <= |qs| && |ds| == |qs|
    ensures LinksPrefix(QuestionTiles(Sections(qs, ds, k)), qs, k)
  {
    if k > 0 {
      var earlier, last := Sections(qs, ds, k - 1), Section(qs[k - 1], ds[k - 1], k - 1);
      SectionsQuestionTiles(qs, ds, k - 1);
      FilterConcat(earlier, last, HasCategory(QuestionTile));
      SectionQuestionTile(qs[k - 1], ds[k - 1], k - 1);
      LinksExtend(QuestionTiles(earlier), QuestionTiles(last), qs, k - 1);
    }
  }

  /** The question tiles of a level are linked, in layout order, to the
      questions in list order, and none starts out consumed. */
  lemma LevelQuestionTiles(qs: seq<Types.Question>, ds: seq<Draw>)
    requires ValidDraws(qs, ds)
    ensures LinksPrefix(QuestionTiles(GenerateLevel(qs, ds).blocks), qs, |qs|)
  {
    var n := |qs|;
    var start, middle, finale := StartPlatform(), Sections(qs, ds, n), Finale(n);
    assert GenerateLevel(qs, ds).blocks == start + middle + finale;
    StartCount(QuestionTile);
    FinaleCount(n, QuestionTile);
    SectionsQuestionTiles(qs, ds, n);
    LinksFramed(start, middle, finale, qs);
  }

  /** Question-free pieces around the linked middle keep the links. */
  lemma LinksFramed(start: seq<Block>, middle: seq<Block>, finale: seq<Block>, qs: seq<Types.Question>)
    requires CountCategory(start, QuestionTile) == 0 && CountCategory(finale, QuestionTile) == 0
    requires LinksPrefix(QuestionTiles(middle), qs, |qs|)
    ensures LinksPrefix(QuestionTiles(start + middle + finale), qs, |qs|)
  {
    FilterConcat(start + middle, finale, HasCategory(QuestionTile));
    FilterConcat(start, middle, HasCategory(QuestionTile));
    assert QuestionTiles(start + middle + finale) == QuestionTiles(middle);
  }

  // ---------------------------------------------------------------------
  // The floor row

  /** `s` is a gapless row of floor-level tiles starting at tile `start`. */
  predicate FloorRun(s: seq<Block>, start: nat) {
    forall i :: 0 <= i < |s| ==>
      && s[i].x == BlockSize * ((start + i) as real)
      && s[i].y == GroundY
      && s[i].width == BlockSize
      && s[i].height == BlockSize
  }

  lemma FloorRunConcat(a: seq<Block>, b: seq<Block>, start: nat)
    requires FloorRun(a, start) && FloorRun(b, start + |a|)
    ensures FloorRun(a + b, start)
  {
    forall i | 0 <= i < |a + b|
      ensures (a + b)[i].x == BlockSize * ((start + i) as real)
    {
      if i >= |a| {
        assert (a + b)[i] == b[i - |a|];
        assert start + |a| + (i - |a|) == start + i;
      }
    }
  }

  lemma SectionFloor(q: Types.Question, d: Draw, index: nat)
    ensures Floor(Section(q, d, index)) == SectionGround(index)
    ensures |SectionGround(index)| == 15
    ensures FloorRun(SectionGround(index), 10 + 15 * index)
  {
    var cx := SectionX(index) + BlockSize * 15.0 - BlockSize * 6.0;
    var p := Pattern(q, d, index, cx);
    var gap, platform := GapFill(index), Platform(index);
    RowFloor(GapRow(index), SectionX(index), 3, 10 + 15 * index);
    RowFloor(PlatformRow(index), SectionX(index) + BlockSize * 3.0, 12, 13 + 15 * index);
    FloorThree(gap, platform, p);
    assert p == [p[0], p[1], p[2]];
    FilterNone(p, IsFloorTile);
    FloorRunConcat(gap, platform, 10 + 15 * index);
  }

  lemma {:induction false} SectionsFloor(qs: seq<Types.Question>, ds: seq<Draw>, k: nat)
    requires k <= |qs| && |ds| == |qs|
    ensures |Floor(Sections(qs, ds, k))| == 15 * k
    ensures FloorRun(Floor(Sections(qs, ds, k)), 10)
  {
    if k > 0 {
      var earlier := Sections(qs, ds, k - 1);
      var last := Section(qs[k - 1], ds[k - 1], k - 1);
      assert Sections(qs, ds, k) == earlier + last;
      SectionsFloor(qs, ds, k - 1);
      SectionFloor(qs[k - 1], ds[k - 1], k - 1);
      FloorStep(earlier, last, SectionGround(k - 1), k - 1);
    }
  }

  /** One more section of floor extends the run of the earlier ones. */
  lemma FloorStep(earlier: seq<Block>, last: seq<Block>, ground: seq<Block>, k: nat)
    requires |Floor(earlier)| == 15 * k && FloorRun(Floor(earlier), 10)
    requires Floor(last) == ground && |ground| == 15 && FloorRun(ground, 10 + 15 * k)
    ensures |Floor(earlier + last)| == 15 * (k + 1)
    ensures FloorRun(Floor(earlier + last), 10)
  {
    FilterConcat(earlier, last, IsFloorTile);
    FloorRunConcat(Floor(earlier), ground, 10);
  }

  lemma FloorThree(a: seq<Block>, b: seq<Block>, c: seq<Block>)
    ensures Floor(a + b + c) == Floor(a) + Floor(b) + Floor(c)
  {
    FilterConcat(a + b, c, IsFloorTile);
    FilterConcat(a, b, IsFloorTile);
  }

  lemma StartFloor()
    ensures |Floor(StartPlatform())| == 10 && FloorRun(Floor(StartPlatform()), 0)
  {
    RowFloor(StartRow, 0.0, 10, 0);
  }

  lemma PodiumFloor(n: nat)
    ensures Floor(PodiumBaseRow(n) + PodiumUpper(n) + [FinishBlock(n)]) == PodiumBaseRow(n)
    ensures FloorRun(PodiumBaseRow(n), 15 + 15 * n)
  {
    FloorThree(PodiumBaseRow(n), PodiumUpper(n), [FinishBlock(n)]);
    RowFloor(PodiumBaseKind, PodiumX(n), 4, 15 + 15 * n);
    FilterNone(PodiumUpper(n), IsFloorTile);
    FilterNone([FinishBlock(n)], IsFloorTile);
  }

  lemma FinaleFloor(n: nat)
    ensures FloorRun(Floor(Finale(n)), 10 + 15 * n)
    ensures |Floor(Finale(n))| == 19
  {
    var pre, podium, end := PreFinish(n), PodiumBaseRow(n) + PodiumUpper(n) + [FinishBlock(n)], EndStrip(n);
    assert Finale(n) == pre + podium + end;
    FloorThree(pre, podium, end);
    RowFloor(PreFinishRow, SectionX(n), 5, 10 + 15 * n);
    PodiumFloor(n);
    RowFloor(EndRow, PodiumX(n) + BlockSize * 4.0, 10, 19 + 15 * n);
    FloorRunConcat(pre, PodiumBaseRow(n), 10 + 15 * n);
    FloorRunConcat(pre + PodiumBaseRow(n), end, 10 + 15 * n);
  }

  /** Three pieces whose floors are consecutive runs from tile 0. */
  lemma FloorJoin(a: seq<Block>, b: seq<Block>, c: seq<Block>, na: nat, nb: nat)
    requires |Floor(a)| == na && FloorRun(Floor(a), 0)
    requires |Floor(b)| == nb && FloorRun(Floor(b), na)
    requires FloorRun(Floor(c), na + nb)
    ensures FloorRun(Floor(a + b + c), 0)
    ensures |Floor(a + b + c)| == na + nb + |Floor(c)|
  {
    FloorThree(a, b, c);
    FloorRunConcat(Floor(a), Floor(b), 0);
    FloorRunConcat(Floor(a) + Floor(b), Floor(c), 0);
  }

  /** The ground and podium-base tiles form one row on the floor line that
      covers x = 0, 70, ..., width - 70 without a gap or an overlap. */
  lemma LevelFloor(qs: seq<Types.Question>, ds: seq<Draw>)
    requires ValidDraws(qs, ds)
    ensures FloorRun(Floor(GenerateLevel(qs, ds).blocks), 0)
    ensures GenerateLevel(qs, ds).width == BlockSize * (|Floor(GenerateLevel(qs, ds).blocks)| as real)
  {
    var n := |qs|;
    var start, middle, finale := StartPlatform(), Sections(qs, ds, n), Finale(n);
    assert GenerateLevel(qs, ds).blocks == start + middle + finale;
    StartFloor();
    SectionsFloor(qs, ds, n);
    FinaleFloor(n);
    FloorJoin(start, middle, finale, 10, 15 * n);
    LevelSize(qs, ds);
  }

  // ---------------------------------------------------------------------
  // Per-tile facts

  /** What holds of every generated tile: it is a 70 x 70 square; it starts
      unconsumed; it carries a question identifier exactly when it is a
      question tile; it sits on the floor line exactly when it is a floor
      tile; and a question tile hangs between five and seven tiles above the
      floor line. */
  predicate TileFacts(b: Block) {
    && b.width == BlockSize && b.height == BlockSize
    && !b.isUsed
    && (b.questionId.Some? <==> b.category == QuestionTile)
    && (b.y == GroundY <==> IsFloorTile(b))
    && (b.category == QuestionTile ==> GroundY - BlockSize * 7.0 <= b.y <= GroundY - BlockSize * 5.0)
  }

  /** Every tile of `s` satisfies `TileFacts` and lies within [lo, hi]. */
  predicate AllTiles(s: seq<Block>, lo: real, hi: real) {
    forall i :: 0 <= i < |s| ==> TileFacts(s[i]) && lo <= s[i].x && s[i].x + s[i].width <= hi
  }

  lemma AllTilesConcat(a: seq<Block>, b: seq<Block>, lo: real, mid: real, hi: real)
    requires AllTiles(a, lo, mid) && AllTiles(b, mid, hi) && lo <= mid <= hi
    ensures AllTiles(a + b, lo, hi)
  {
  }

  lemma PatternTiles(q: Types.Question, d: Draw, index: nat)
    requires ValidDraw(d)
    ensures AllTiles(Pattern(q, d, index, SectionX(index) + BlockSize * 15.0 - BlockSize * 6.0), SectionX(index), SectionX(index + 1))
  {
  }

  lemma SectionTiles(q: Types.Question, d: Draw, index: nat)
    requires ValidDraw(d)
    ensures AllTiles(Section(q, d, index), SectionX(index), SectionX(index + 1))
  {
    PatternTiles(q, d, index);
    RowTiles(GapRow(index), SectionX(index), 3, SectionX(index), SectionX(index + 1));
    RowTiles(PlatformRow(index), SectionX(index) + BlockSize * 3.0, 12, SectionX(index), SectionX(index + 1));
  }

  lemma {:induction false} SectionsTiles(qs: seq<Types.Question>, ds: seq<Draw>, k: nat)
    requires ValidDraws(qs, ds) && k <= |qs|
    ensures AllTiles(Sections(qs, ds, k), SectionX(0), SectionX(k))
  {
    if k > 0 {
      SectionsTiles(qs, ds, k - 1);
      SectionTiles(qs[k - 1], ds[k - 1], k - 1);
      AllTilesConcat(Sections(qs, ds, k - 1), Section(qs[k - 1], ds[k - 1], k - 1), SectionX(0), SectionX(k - 1), SectionX(k));
    }
  }

  lemma FinaleTiles(n: nat)
    ensures AllTiles(Finale(n), SectionX(n), SectionX(n) + BlockSize * 19.0)
  {
    var lo, hi := SectionX(n), SectionX(n) + BlockSize * 19.0;
    RowTiles(PreFinishRow, SectionX(n), 5, lo, hi);
    RowTiles(PodiumBaseKind, PodiumX(n), 4, lo, hi);
    assert AllTiles(PodiumUpper(n), lo, hi);
    assert AllTiles([FinishBlock(n)], lo, hi);
    RowTiles(EndRow, PodiumX(n) + BlockSize * 4.0, 10, lo, hi);
  }

  /** Every tile of a level is a 70 x 70 square lying within the level's
      width, starts unconsumed, carries a question identifier exactly when it
      is a question tile, sits on the floor line exactly when it is a floor
      tile, and (for a question tile) hangs between five and seven tiles
      above the floor line. */
  lemma LevelTiles(qs: seq<Types.Question>, ds: seq<Draw>)
    requires ValidDraws(qs, ds)
    ensures AllTiles(GenerateLevel(qs, ds).blocks, 0.0, GenerateLevel(qs, ds).width)
  {
    var n := |qs|;
    var start, middle, finale := StartPlatform(), Sections(qs, ds, n), Finale(n);
    assert GenerateLevel(qs, ds).blocks == start + middle + finale;
    RowTiles(StartRow, 0.0, 10, 0.0, SectionX(0));
    SectionsTiles(qs, ds, n);
    FinaleTiles(n);
    AllTilesConcat(start, middle, 0.0, SectionX(0), SectionX(n));
    AllTilesConcat(start + middle, finale, 0.0, SectionX(n), GenerateLevel(qs, ds).width);
  }

  // ---------------------------------------------------------------------
  // What the draws may change

  /** Two tiles that differ at most in position. */
  predicate SameShape(a: Block, b: Block) {
    && a.id == b.id && a.category == b.category
    && a.width == b.width && a.height == b.height
    && a.questionId == b.questionId && a.isUsed == b.isUsed
  }

  /** Two layouts tile for tile alike except for the positions of bricks and
      question tiles. */
  predicate Congruent(s1: seq<Block>, s2: seq<Block>) {
    && |s1| == |s2|
    && forall i :: 0 <= i < |s1| ==>
         && SameShape(s1[i], s2[i])
         && (s1[i].category != BrickTile && s1[i].category != QuestionTile ==> s1[i] == s2[i])
  }

  lemma CongruentConcat(a1: seq<Block>, b1: seq<Block>, a2: seq<Block>, b2: seq<Block>)
    requires Congruent(a1, a2) && Congruent(b1, b2)
    ensures Congruent(a1 + b1, a2 + b2)
  {
  }

  lemma SectionCongruent(q: Types.Question, d1: Draw, d2: Draw, index: nat)
    ensures Congruent(Section(q, d1, index), Section(q, d2, index))
  {
    var cx := SectionX(index) + BlockSize * 15.0 - BlockSize * 6.0;
    assert Congruent(Pattern(q, d1, index, cx), Pattern(q, d2, index, cx));
    CongruentConcat(SectionGround(index), Pattern(q, d1, index, cx), SectionGround(index), Pattern(q, d2, index, cx));
  }

  lemma {:induction false} SectionsCongruent(qs: seq<Types.Question>, ds1: seq<Draw>, ds2: seq<Draw>, k: nat)
    requires |ds1| == |qs| && |ds2| == |qs| && k <= |qs|
    ensures Congruent(Sections(qs, ds1, k), Sections(qs, ds2, k))
  {
    if k > 0 {
      SectionsCongruent(qs, ds1, ds2, k - 1);
      SectionCongruent(qs[k - 1], ds1[k - 1], ds2[k - 1], k - 1);
      CongruentConcat(Sections(qs, ds1, k - 1), Section(qs[k - 1], ds1[k - 1], k - 1),
                      Sections(qs, ds2, k - 1), Section(qs[k - 1], ds2[k - 1], k - 1));
    }
  }

  /** Regenerating a level for the same questions yields the same width and,
      tile for tile, the same identifiers, categories, sizes and question
      links; only bricks and question tiles may sit elsewhere. */
  lemma DrawsOnlyMoveClusters(qs: seq<Types.Question>, ds1: seq<Draw>, ds2: seq<Draw>)
    requires ValidDraws(qs, ds1) && ValidDraws(qs, ds2)
    ensures Congruent(GenerateLevel(qs, ds1).blocks, GenerateLevel(qs, ds2).blocks)
    ensures GenerateLevel(qs, ds1).width == GenerateLevel(qs, ds2).width
  {
    var n := |qs|;
    SectionsCongruent(qs, ds1, ds2, n);
    assert Congruent(StartPlatform(), StartPlatform());
    assert Congruent(Finale(n), Finale(n));
    CongruentConcat(StartPlatform(), Sections(qs, ds1, n), StartPlatform(), Sections(qs, ds2, n));
    CongruentConcat(StartPlatform() + Sections(qs, ds1, n), Finale(n), StartPlatform() + Sections(qs, ds2, n), Finale(n));
  }

  /** Lifting a section (the offset roll above one half) moves exactly the
      tiles on the fourth and fifth tier up by one tile; the sixth and seventh
      tiers and the ground stay where they are. */
  lemma RaiseShiftsLowTiersOnly(q: Types.Question, d1: Draw, d2: Draw, index: nat)
    requires d1.offsetRoll <= 0.5 < d2.offsetRoll && d1.gapRoll == d2.gapRoll
    ensures |Section(q, d1, index)| == |Section(q, d2, index)|
    ensures forall m :: 0 <= m < |Section(q, d1, index)| ==>
      var low := Section(q, d1, index)[m];
      Section(q, d2, index)[m]
        == low.(y := if low.y == GroundY - BlockSize * 4.0 || low.y == GroundY - BlockSize * 5.0
                     then low.y - BlockSize else low.y)
  {
  }
}

=== FILE: optional.dfy ===
/** The optional value used wherever the game keeps "nothing yet"
    (`null`/`undefined` in the original program). */
module Optional {

  datatype Option<+T> = None | Some(value: T) {

    /** The value, or `default` when there is none. */
    function GetOr(default: T): T {
      match this
      case Some(v) => v
      case None => default
    }
  }
}

=== FILE: physics.dfy ===
/** One frame of the adventure's player physics: input, gravity, the
    horizontal and vertical collision passes against the tiles, the finish
    lookup and the camera. Coordinates are exact rationals (`real`), an
    idealisation of the program's floating-point numbers; y grows downwards. */
module Physics {
  import opened Optional
  import Types
  import opened Level

  const Gravity: real := 0.8
  const JumpForce: real := -26.0
  const MaxSpeed: real := 5.0
  /** Falling below this line ends the game. */
  const FallLimit: real := 2000.0
  /** Releasing jump while rising faster than this halves the rise. */
  const JumpCutSpeed: real := -5.0

  datatype Player = Player(
    x: real, y: real,
    vx: real, vy: real,
    width: real, height: real,
    isGrounded: bool,
    facingRight: bool)

  /** The first tile of a category, if any (`blocks.find`). */
  function FindCategory(bs: seq<Block>, c: Category): (r: Option<Block>)
    ensures r.Some? ==> r.value in bs && r.value.category == c
    ensures r.Some? ==> exists i :: 0 <= i < |bs| && bs[i] == r.value && forall j :: 0 <= j < i ==> bs[j].category != c
    ensures r.None? ==> forall i :: 0 <= i < |bs| ==> bs[i].category != c
  {
    if |bs| == 0 then None
    else if bs[0].category == c then Some(bs[0])
    else FindCategory(bs[1..], c)
  }

  /** The player at mount: 100 x 150, at x = 100, standing 100 above the
      first ground tile (or at y = 0 when there is none), not grounded. */
  function InitialPlayer(bs: seq<Block>): (r: Player)
    ensures r.x == 100.0 && r.vx == 0.0 && r.vy == 0.0 && !r.isGrounded && r.facingRight
    ensures r.width == 100.0 && r.height == 150.0
    ensures r.y == match FindCategory(bs, GroundTile) case Some(g) => g.y - 100.0 case None => 0.0
  {
    var start := Player(100.0, 0.0, 0.0, 0.0, 100.0, 150.0, false, true);
    match FindCategory(bs, GroundTile)
    case Some(g) => start.(y := g.y - 100.0)
    case None => start
  }

  // ---------------------------------------------------------------------
  // Collision test

  /** Strict axis-aligned overlap of the player's box and a tile's box. */
  predicate CheckCollision(p: Player, b: Block) {
    && p.x < b.x + b.width
    && p.x + p.width > b.x
    && p.y < b.y + b.height
    && p.y + p.height > b.y
  }

  /** A point strictly inside the box with corner (x, y) and the given size. */
  predicate StrictlyInside(px: real, py: real, x: real, y: real, w: real, h: real) {
    x < px < x + w && y < py < y + h
  }

  function Max(a: real, b: real): real { if a < b then b else a }

  function Min(a: real, b: real): real { if a < b then a else b }

  /** For boxes of positive size, the collision test holds exactly when the
      two open boxes share a point; boxes that only share an edge or a
      corner do not collide. */
  lemma CollisionIsSharedInterior(p: Player, b: Block)
    requires p.width > 0.0 && p.height > 0.0 && b.width > 0.0 && b.height > 0.0
    ensures CheckCollision(p, b) <==>
      exists px: real, py: real ::
        StrictlyInside(px, py, p.x, p.y, p.width, p.height) && StrictlyInside(px, py, b.x, b.y, b.width, b.height)
  {
    if CheckCollision(p, b) {
      var px := (Max(p.x, b.x) + Min(p.x + p.width, b.x + b.width)) / 2.0;
      var py := (Max(p.y, b.y) + Min(p.y + p.height, b.y + b.height)) / 2.0;
      assert StrictlyInside(px, py, p.x, p.y, p.width, p.height);
      assert StrictlyInside(px, py, b.x, b.y, b.width, b.height);
    }
  }

  /** Boxes that only touch along an edge do not collide. */
  lemma TouchingIsNotColliding(p: Player, b: Block)
    requires p.x + p.width == b.x || b.x + b.width == p.x || p.y + p.height == b.y || b.y + b.height == p.y
    ensures !CheckCollision(p, b)
  {
  }

  // ---------------------------------------------------------------------
  // Input and gravity

  predicate LeftHeld(held: set<string>) { "ArrowLeft" in held || "KeyA" in held }

  predicate RightHeld(held: set<string>) { "ArrowRight" in held || "KeyD" in held }

  predicate JumpHeld(held: set<string>) { "ArrowUp" in held || "Space" in held || "KeyW" in held }

  /** The keys that, when released, cut a jump short. */
  predicate IsJumpKey(code: string) { code == "ArrowUp" || code == "Space" || code == "KeyW" }

  /** The held keys set the horizontal speed outright (no acceleration ramp)
      and a jump starts only from the ground. */
  function ApplyInput(p: Player, held: set<string>): (r: Player)
    ensures r.vx == -MaxSpeed || r.vx == 0.0 || r.vx == MaxSpeed
    ensures r.vx > 0.0 <==> RightHeld(held) && !LeftHeld(held)
    ensures r.vx < 0.0 <==> LeftHeld(held) && !RightHeld(held)
    ensures r.facingRight == if LeftHeld(held) == RightHeld(held) then p.facingRight else RightHeld(held)
    ensures JumpHeld(held) && p.isGrounded ==> r.vy == JumpForce && !r.isGrounded
    ensures !(JumpHeld(held) && p.isGrounded) ==> r.vy == p.vy && r.isGrounded == p.isGrounded
    ensures r.x == p.x && r.y == p.y && r.width == p.width && r.height == p.height
  {
    var dx := (if LeftHeld(held) then -1 else 0) + (if RightHeld(held) then 1 else 0);
    var steered := if dx != 0 then p.(vx := (dx as real) * MaxSpeed, facingRight := dx > 0) else p.(vx := 0.0);
    if JumpHeld(held) && steered.isGrounded then steered.(vy := JumpForce, isGrounded := false) else steered
  }

  /** One frame of gravity. */
  function Fall(p: Player): Player {
    p.(vy := p.vy + Gravity)
  }

  /** The safety clamp of the horizontal speed to [-MaxSpeed, MaxSpeed]. */
  function ClampSpeed(p: Player): (r: Player)
    ensures -MaxSpeed <= r.vx <= MaxSpeed
    ensures -MaxSpeed <= p.vx <= MaxSpeed ==> r == p
  {
    if p.vx > MaxSpeed then p.(vx := MaxSpeed)
    else if p.vx < -MaxSpeed then p.(vx := -MaxSpeed)
    else p
  }

  /** The speed clamp never changes anything: input already sets the
      horizontal speed to -5, 0 or 5, and gravity adds 0.8 to the vertical
      speed. */
  lemma SpeedClampIsRedundant(p: Player, held: set<string>)
    ensures ClampSpeed(Fall(ApplyInput(p, held))) == Fall(ApplyInput(p, held))
    ensures Fall(ApplyInput(p, held)).vy == ApplyInput(p, held).vy + Gravity
  {
  }

  // ---------------------------------------------------------------------
  // The collision passes

  /** A tile that takes part in collision resolution (the finish trigger
      does not). */
  predicate Solid(b: Block) { b.category != FinishTile }

  /** The index of the first solid tile that collides with `p`. */
  function FirstHit(p: Player, bs: seq<Block>): (r: Option<nat>)
    ensures r.Some? ==> r.value < |bs| && Solid(bs[r.value]) && CheckCollision(p, bs[r.value])
    ensures r.Some? ==> forall j :: 0 <= j < r.value ==> !(Solid(bs[j]) && CheckCollision(p, bs[j]))
    ensures r.None? ==> forall j :: 0 <= j < |bs| ==> !(Solid(bs[j]) && CheckCollision(p, bs[j]))
  {
    if |bs| == 0 then None
    else if Solid(bs[0]) && CheckCollision(p, bs[0]) then Some(0)
    else match FirstHit(p, bs[1..])
      case None => None
      case Some(i) => Some(i + 1)
  }

  /** Horizontal resolution against one tile: a colliding solid tile pushes
      the player back to the tile's near edge, by the sign of its speed, and
      stops it. */
  function ResolveX(p: Player, b: Block): (r: Player)
    ensures !(Solid(b) && CheckCollision(p, b)) ==> r == p
    ensures Solid(b) && CheckCollision(p, b) ==>
      && r == p.(x := r.x, vx := 0.0)
      && (p.vx > 0.0 ==> r.x + r.width == b.x)
      && (p.vx < 0.0 ==> r.x == b.x + b.width)
      && (p.vx == 0.0 ==> r.x == p.x)
      && (p.vx != 0.0 ==> !CheckCollision(r, b))
  {
    if !Solid(b) || !CheckCollision(p, b) then p
    else if p.vx > 0.0 then p.(x := b.x - p.width, vx := 0.0)
    else if p.vx < 0.0 then p.(x := b.x + b.width, vx := 0.0)
    else p.(vx := 0.0)
  }

  /** The horizontal loop over the tiles, in order. */
  function SweepX(p: Player, bs: seq<Block>): Player
    decreases |bs|
  {
    if |bs| == 0 then p else SweepX(ResolveX(p, bs[0]), bs[1..])
  }

  /** A stopped player stays put through the horizontal loop. */
  lemma {:induction false} SweepXStopped(p: Player, bs: seq<Block>)
    requires p.vx == 0.0
    ensures SweepX(p, bs) == p
  {
    if |bs| > 0 {
      SweepXStopped(ResolveX(p, bs[0]), bs[1..]);
    }
  }

  /** The horizontal loop is decided by the first solid tile the player
      collides with: every later collision finds it already stopped. */
  lemma {:induction false} SweepXFirstHit(p: Player, bs: seq<Block>)
    ensures SweepX(p, bs) == match FirstHit(p, bs) case None => p case Some(i) => ResolveX(p, bs[i])
  {
    if |bs| > 0 {
      if Solid(bs[0]) && CheckCollision(p, bs[0]) {
        SweepXStopped(ResolveX(p, bs[0]), bs[1..]);
      } else {
        SweepXFirstHit(p, bs[1..]);
      }
    }
  }

  /** The horizontal pass: move by vx, then resolve against every tile in
      order. If no solid tile collides with the moved player it keeps its
      move; otherwise the first colliding tile alone decides the outcome:
      the player stops, and (when it was moving) it ends flush against that
      tile's near edge, no longer colliding with it. Later tiles may still
      collide with the result. */
  function HorizontalPass(p: Player, bs: seq<Block>): (r: Player)
    ensures var moved := p.(x := p.x + p.vx);
      match FirstHit(moved, bs)
      case None => r == moved
      case Some(i) =>
        && r == moved.(x := r.x, vx := 0.0)
        && (p.vx > 0.0 ==> r.x + r.width == bs[i].x)
        && (p.vx < 0.0 ==> r.x == bs[i].x + bs[i].width)
        && (p.vx == 0.0 ==> r.x == moved.x)
        && (p.vx != 0.0 ==> !CheckCollision(r, bs[i]))
  {
    var moved := p.(x := p.x + p.vx);
    SweepXFirstHit(moved, bs);
    SweepX(moved, bs)
  }

  /** What the vertical pass leaves behind: the player, the question latch,
      and the questions whose tiles were struck from below (at most one). */
  datatype VerticalOutcome = VerticalOutcome(player: Player, latch: bool, triggered: seq<Types.Question>)

  /** The first question with the given identifier (`allQuestions.find`);
      a tile without an identifier matches none. */
  function FindQuestion(qs: seq<Types.Question>, id: Option<int>): (r: Option<Types.Question>)
    ensures r.Some? ==> r.value in qs && id == Some(r.value.id)
    ensures r.Some? ==> exists i :: 0 <= i < |qs| && qs[i] == r.value && forall j :: 0 <= j < i ==> id != Some(qs[j].id)
    ensures r.None? ==> forall i :: 0 <= i < |qs| ==> id != Some(qs[i].id)
  {
    if |qs| == 0 then None
    else if id == Some(qs[0].id) then Some(qs[0])
    else FindQuestion(qs[1..], id)
  }

  /** A tile that opens a question when struck from below: an unconsumed
      question tile whose question exists, while the latch is clear. */
  predicate Triggers(b: Block, latch: bool, qs: seq<Types.Question>) {
    b.category == QuestionTile && !b.isUsed && !latch && FindQuestion(qs, b.questionId).Some?
  }

  /** Vertical resolution against one tile: landing on it grounds the
      player on its top; hitting it from below puts the player under it and,
      for a triggering tile, sets the latch and records its question. */
  function ResolveY(p: Player, b: Block, latch: bool, qs: seq<Types.Question>): VerticalOutcome {
    if !Solid(b) || !CheckCollision(p, b) then VerticalOutcome(p, latch, [])
    else if p.vy > 0.0 then VerticalOutcome(p.(y := b.y - p.height, isGrounded := true, vy := 0.0), latch, [])
    else if p.vy < 0.0 then
      var under := p.(y := b.y + b.height, vy := 0.0);
      if Triggers(b, latch, qs) then VerticalOutcome(under, true, [FindQuestion(qs, b.questionId).value])
      else VerticalOutcome(under, latch, [])
    else VerticalOutcome(p, latch, [])
  }

  /** The vertical loop over the tiles, in order. */
  function SweepY(p: Player, bs: seq<Block>, latch: bool, qs: seq<Types.Question>): VerticalOutcome
    decreases |bs|
  {
    if |bs| == 0 then VerticalOutcome(p, latch, [])
    else
      var first := ResolveY(p, bs[0], latch, qs);
      var rest := SweepY(first.player, bs[1..], first.latch, qs);
      VerticalOutcome(rest.player, rest.latch, first.triggered + rest.triggered)
  }

  lemma {:induction false} SweepYStopped(p: Player, bs: seq<Block>, latch: bool, qs: seq<Types.Question>)
    requires p.vy == 0.0
    ensures SweepY(p, bs, latch, qs) == VerticalOutcome(p, latch, [])
  {
    if |bs| > 0 {
      SweepYStopped(p, bs[1..], latch, qs);
    }
  }

  /** The vertical loop is decided by the first solid tile the player
      collides with. */
  lemma {:induction false} SweepYFirstHit(p: Player, bs: seq<Block>, latch: bool, qs: seq<Types.Question>)
    ensures SweepY(p, bs, latch, qs)
         == match FirstHit(p, bs)
            case None => VerticalOutcome(p, latch, [])
            case Some(i) => ResolveY(p, bs[i], latch, qs)
  {
    if |bs| > 0 {
      var first := ResolveY(p, bs[0], latch, qs);
      if Solid(bs[0]) && CheckCollision(p, bs[0]) {
        SweepYStopped(first.player, bs[1..], first.latch, qs);
        assert first.triggered + [] == first.triggered;
      } else {
        SweepYFirstHit(p, bs[1..], latch, qs);
      }
    }
  }

  /** The vertical pass: move by vy, clear the grounded flag, then resolve
      against every tile in order. Only the first solid tile the moved
      player collides with matters. Moving down onto it grounds the player
      on its top; moving up into it puts the player just under it; either
      way the vertical speed becomes 0 and that tile no longer collides.
      Nothing else grounds the player. A question is triggered (at most one
      per frame) exactly when the player moves up into an unconsumed
      question tile while the latch is clear; triggering sets the latch, and
      nothing else changes it. */
  function VerticalPass(p: Player, bs: seq<Block>, latch: bool, qs: seq<Types.Question>): (r: VerticalOutcome)
    ensures var moved := p.(y := p.y + p.vy, isGrounded := false);
      && r.player.x == p.x && r.player.vx == p.vx
      && |r.triggered| <= 1
      && r.latch == (latch || |r.triggered| == 1)
      && match FirstHit(moved, bs)
         case None => r == VerticalOutcome(moved, latch, [])
         case Some(i) =>
           && (r.player.isGrounded <==> p.vy > 0.0)
           && (p.vy > 0.0 ==> r.player == moved.(y := bs[i].y - p.height, isGrounded := true, vy := 0.0))
           && (p.vy < 0.0 ==> r.player == moved.(y := bs[i].y + bs[i].height, vy := 0.0))
           && (p.vy == 0.0 ==> r.player == moved)
           && (p.vy != 0.0 ==> !CheckCollision(r.player, bs[i]))
           && (|r.triggered| == 1 <==> p.vy < 0.0 && Triggers(bs[i], latch, qs))
           && (|r.triggered| == 1 ==> r.triggered[0] == FindQuestion(qs, bs[i].questionId).value)
  {
    var moved := p.(y := p.y + p.vy, isGrounded := false);
    SweepYFirstHit(moved, bs, latch, qs);
    SweepY(moved, bs, latch, qs)
  }

  /** A set latch, or a consumed tile, never opens a question. */
  lemma LatchOrUsedNeverTriggers(p: Player, bs: seq<Block>, latch: bool, qs: seq<Types.Question>)
    requires latch || forall j :: 0 <= j < |bs| && bs[j].category == QuestionTile ==> bs[j].isUsed
    ensures VerticalPass(p, bs, latch, qs).triggered == []
  {
  }

  /** The collision passes do not separate the player from every tile:
      after being pushed out of the first tile it hits, it can still
      collide with the next one. */
  lemma PassesDoNotSeparateGlobally()
    ensures var p := Player(0.0, 0.0, 5.0, 0.0, 100.0, 150.0, false, true);
      var b1 := Tile(BrickBlock(0, 1), 90.0, 0.0, BrickTile);
      var b2 := Tile(BrickBlock(0, 2), 0.0, 0.0, BrickTile);
      var r := HorizontalPass(p, [b1, b2]);
      !CheckCollision(r, b1) && CheckCollision(r, b2)
  {
  }

  // ---------------------------------------------------------------------
  // Finish, camera, jump release

  /** Whether the player overlaps the first finish tile. */
  predicate ReachesFinish(p: Player, bs: seq<Block>) {
    match FindCategory(bs, FinishTile)
    case Some(f) => CheckCollision(p, f)
    case None => false
  }

  function Dist(a: real, b: real): real { if a < b then b - a else a - b }

  /** `r` is a point of [lo, hi] nearest to `target`. */
  ghost predicate NearestIn(r: real, target: real, lo: real, hi: real) {
    lo <= r <= hi && forall c :: lo <= c <= hi ==> Dist(r, target) <= Dist(c, target)
  }

  /** The camera keeps the player a third of the way across the viewport,
      clamped to the level: it is the point of [0, max(0, width - viewport)]
      nearest to that target. */
  function CameraFor(x: real, viewport: real, levelWidth: real): (r: real)
    ensures NearestIn(r, x - viewport / 3.0, 0.0, Max(0.0, levelWidth - viewport))
  {
    Max(0.0, Min(x - viewport / 3.0, levelWidth - viewport))
  }

  // ---------------------------------------------------------------------
  // Jump height

  /** `n` frames of motion with the keys `held` and no tile anywhere. */
  function Flight(p: Player, held: set<string>, n: nat): Player {
    if n == 0 then p
    else
      var q := Flight(p, held, n - 1);
      VerticalPass(HorizontalPass(ClampSpeed(Fall(ApplyInput(q, held))), []), [], false, []).player
  }

  /** A jump from the ground with nothing in the way: after `n` frames the
      player is airborne, rising at 26 less 0.8 per frame so far, and has
      moved by the sum of those speeds. */
  lemma {:induction false} FlightHeight(p: Player, held: set<string>, n: nat)
    requires p.isGrounded && JumpHeld(held) && n >= 1
    ensures !Flight(p, held, n).isGrounded
    ensures Flight(p, held, n).vy == JumpForce + Gravity * (n as real)
    ensures Flight(p, held, n).y == p.y + JumpForce * (n as real) + 0.4 * (n as real) * ((n + 1) as real)
  {
    if n > 1 {
      FlightHeight(p, held, n - 1);
      var m := (n - 1) as real;
      assert JumpForce * m + 0.4 * m * (m + 1.0) + JumpForce + Gravity * (m + 1.0)
          == JumpForce * (m + 1.0) + 0.4 * (m + 1.0) * (m + 2.0);
    }
  }

  /** A jump rises for 32 frames and at most 409.6 in all, reached on
      frame 32. */
  lemma JumpApex(p: Player, held: set<string>, n: nat)
    requires p.isGrounded && JumpHeld(held) && n >= 1
    ensures Flight(p, held, n).y >= p.y - 409.6
    ensures Flight(p, held, 32).y == p.y - 409.6
    ensures n <= 32 <==> Flight(p, held, n).vy < 0.0
  {
    FlightHeight(p, held, n);
    FlightHeight(p, held, 32);
    var k := n as real;
    assert JumpForce * k + 0.4 * k * (k + 1.0) + 409.6 == 0.4 * (k - 32.0) * (k - 32.0);
  }

  /** Releasing the jump key halves the vertical speed, but only while the
      player rises faster than 5 per frame; it never reverses or speeds up
      the rise. */
  function ReleaseJump(p: Player): (r: Player)
    ensures p.vy < JumpCutSpeed ==> r == p.(vy := p.vy * 0.5) && p.vy < r.vy < 0.0
    ensures p.vy >= JumpCutSpeed ==> r == p
  {
    if p.vy < JumpCutSpeed then p.(vy := p.vy * 0.5) else p
  }
}

=== FILE: reach.dfy ===
/** The cluster heights of the generator against the jump: every question
    tile can be struck from below by a jump from the floor. */
module Reach {
  import Types
  import opened Level
  import opened LevelFacts
  import opened Physics

  /** A player of the program's size standing on the floor line who jumps
      with nothing in the way gets its head above the underside of every
      question tile of a generated level by frame 32, the top of the jump. */
  lemma QuestionTilesWithinJump(qs: seq<Types.Question>, ds: seq<Draw>, p: Player, held: set<string>, i: nat)
    requires ValidDraws(qs, ds)
    requires p.isGrounded && JumpHeld(held) && p.height == 150.0 && p.y + p.height == GroundY
    requires i < |GenerateLevel(qs, ds).blocks| && GenerateLevel(qs, ds).blocks[i].category == QuestionTile
    ensures Flight(p, held, 32).y < GenerateLevel(qs, ds).blocks[i].y + GenerateLevel(qs, ds).blocks[i].height
    ensures GenerateLevel(qs, ds).blocks[i].y + GenerateLevel(qs, ds).blocks[i].height <= p.y
  {
    LevelTiles(qs, ds);
    JumpApex(p, held, 32);
  }
}

=== FILE: seqs.dfy ===
/** Order-preserving filtering of sequences, with the facts the level
    lemmas need about it. */
module Seqs {

  /** The elements of `s` that satisfy `keep`, in their original order. */
  function Filter<T>(s: seq<T>, keep: T -> bool): (r: seq<T>)
    ensures |r| <= |s|
  {
    if |s| == 0 then []
    else if keep(s[0]) then [s[0]] + Filter(s[1..], keep)
    else Filter(s[1..], keep)
  }

  /** Filtering distributes over concatenation. */
  lemma {:induction false} FilterConcat<T>(a: seq<T>, b: seq<T>, keep: T -> bool)
    ensures Filter(a + b, keep) == Filter(a, keep) + Filter(b, keep)
  {
    if |a| == 0 {
      assert a + b == b;
    } else {
      assert (a + b)[1..] == a[1..] + b;
      FilterConcat(a[1..], b, keep);
    }
  }

  /** A sequence whose every element is kept filters to itself. */
  lemma {:induction false} FilterAll<T>(s: seq<T>, keep: T -> bool)
    requires forall i :: 0 <= i < |s| ==> keep(s[i])
    ensures Filter(s, keep) == s
  {
    if |s| > 0 {
      FilterAll(s[1..], keep);
    }
  }

  /** A sequence none of whose elements is kept filters to nothing. */
  lemma {:induction false} FilterNone<T>(s: seq<T>, keep: T -> bool)
    requires forall i :: 0 <= i < |s| ==> !keep(s[i])
    ensures Filter(s, keep) == []
  {
    if |s| > 0 {
      FilterNone(s[1..], keep);
    }
  }

  /** Filtering a sequence with a known first element. */
  lemma FilterCons<T>(x: T, s: seq<T>, keep: T -> bool)
    ensures Filter([x] + s, keep) == (if keep(x) then [x] else []) + Filter(s, keep)
  {
    assert ([x] + s)[1..] == s;
  }

  /** Filtering a three-element sequence. */
  lemma FilterThree<T>(a: T, b: T, c: T, keep: T -> bool)
    ensures Filter([a, b, c], keep)
         == (if keep(a) then [a] else []) + (if keep(b) then [b] else []) + (if keep(c) then [c] else [])
  {
    assert [a, b, c] == [a] + ([b] + [c]);
    FilterCons(a, [b] + [c], keep);
    FilterCons(b, [c], keep);
    FilterCons(c, [], keep);
  }
}

=== FILE: types.dfy ===
/** The quiz content types shared by both game modes (types.ts), and the
    two ways the program flattens the level list. */
module Types {
  import opened Optional

  /** One answer choice; `id` is the letter shown beside it. */
  datatype QuizOption = QuizOption(id: string, text: string)

  datatype Question = Question(
    id: int,
    scenario: Option<string>,
    question: string,
    options: seq<QuizOption>,
    correctAnswer: string,
    analysis: string)

  datatype Level = Level(id: int, title: string, description: string, questions: seq<Question>)

  /** The screens of the application shell. */
  datatype GameState = Start | Playing | LevelTransition | Completed | GameOver

  /** Every question of every level, level by level (`flatMap` in the
      adventure component). */
  function AllQuestions(levels: seq<Level>): seq<Question>
  {
    if |levels| == 0 then [] else AllQuestions(levels[..|levels| - 1]) + levels[|levels| - 1].questions
  }

  /** The number of questions over all levels (the `reduce` on the
      completion screen). */
  function TotalQuestions(levels: seq<Level>): nat
  {
    if |levels| == 0 then 0 else TotalQuestions(levels[..|levels| - 1]) + |levels[|levels| - 1].questions|
  }

  /** The position of question `qi` of level `li` in the flattened list. */
  function Rank(levels: seq<Level>, li: nat, qi: nat): nat
    requires li <= |levels|
  {
    TotalQuestions(levels[..li]) + qi
  }

  /** The adventure's question list and the completion screen agree on how
      many questions there are, and the flattened list holds question `qi`
      of level `li` at position `Rank(levels, li, qi)`. */
  lemma {:induction false} AllQuestionsCount(levels: seq<Level>)
    ensures |AllQuestions(levels)| == TotalQuestions(levels)
    ensures forall li, qi :: 0 <= li < |levels| && 0 <= qi < |levels[li].questions| ==>
      Rank(levels, li, qi) < |AllQuestions(levels)| && AllQuestions(levels)[Rank(levels, li, qi)] == levels[li].questions[qi]
  {
    if |levels| > 0 {
      var init := levels[..|levels| - 1];
      AllQuestionsCount(init);
      forall li, qi | 0 <= li < |levels| && 0 <= qi < |levels[li].questions|
        ensures Rank(levels, li, qi) < |AllQuestions(levels)|
        ensures AllQuestions(levels)[Rank(levels, li, qi)] == levels[li].questions[qi]
      {
        if li < |levels| - 1 {
          assert levels[..li] == init[..li];
          assert init[li] == levels[li];
          assert Rank(levels, li, qi) == Rank(init, li, qi);
          assert AllQuestions(levels) == AllQuestions(init) + levels[|levels| - 1].questions;
        } else {
          assert levels[..li] == init;
        }
      }
    }
  }
}
